=== FILE: README.md ===
# Spring festival countdown — a Dafny model of its sequential core

The application is a browser page that counts down to the 2026 spring
festival. Comments ("danmaku") fly across the screen, settings and a comment
history are saved in `localStorage`, and five colour themes can be switched
from the keyboard. Most of it is DOM and timer plumbing. This project models
the logic underneath it as pure functions over immutable records:

- `countdown.dfy` (`Countdown`) is the countdown engine of
  `src/core/countdown.js`:
  - the decomposition of the remaining milliseconds into days, hours,
    minutes and seconds;
  - the one-shot "one day left" egg and the final-minute flag;
  - the render gate on the last painted seconds value;
  - stop, reset and start, and the changed-digit pulse.
- `legacy.dfy` (`Legacy`) is the older copy of that engine in the
  single-file `script.js`. It differs in three ways: the final minute is
  edge-triggered in both directions, every tick runs inside `try`/`catch`,
  and `simulateCountdown` moves the target. It also covers that copy's
  `createDanmaku` eviction.
- `danmaku.dfy` (`Danmaku`) is the comment stream of `src/core/danmaku.js`:
  - the container as a sequence with a cap and first-in-first-out eviction;
  - the random look of a comment;
  - the `animationend` clean-up;
  - both `sendDanmaku` definitions, the auto feed, clean-up and the title egg;
  - the title-click egg of `script.js`, which counts clicks the same way.
- `danmaku_pool.dfy` (`DanmakuPool`) is the element pool of
  `src/utils/danmakuPool.js`, including the global instance and
  `createPooledDanmaku`. Elements are numbered in the order the document
  makes them, so an element reused from the pool keeps its identity: its
  place on screen, its `animationend` handlers and its animation name.
- `storage.dfy` (`Storage`) covers `src/utils/storage.js`:
  - `localStorage` as a map whose entries parse or are corrupt;
  - the settings as defaults overridden by persisted keys;
  - the history, bounded at 100 and newest first;
  - the user presets, duplicate-free and bounded at 20.
- `themes.dfy` (`Themes`) covers `src/utils/themes.js`: the theme ids, the
  current theme, `setTheme`, `getThemeInfo`, `init`, and the Alt+digit and
  Alt+T shortcuts.
- `helpers.dfy` (`Helpers`) covers `src/utils/helpers.js`: `randomInt` and
  `randomItem` with the random draw passed in, and `throttle` and `debounce`
  as state machines driven by "call" and "timer fires" events.
- `js.dfy` (`Js`) holds the JavaScript built-ins the rest relies on: an
  absent value, a call that throws, and `String.prototype.trim`.

Values the page gets from its environment are parameters:

- The current time `now` and the target are integer milliseconds.
- Each `Math.random()` result is a `real` draw in [0, 1).
- Interval and timeout handles are natural numbers supplied by the caller.
- Whether an element exists on the page is a boolean.

A tick returns the next state together with the list of visible effects
it produced. The effects are the announcement, the eggs, the final-minute
animation, and a repaint or a skipped repaint.

## Model

| member | source | states |
|---|---|---|
| Countdown.Decompose | src/core/countdown.js:69-72 | for a positive remainder, hours < 24, minutes < 60, seconds < 60, and the parts rebuild the remainder to within one second below it |
| Countdown.SecondsOfMinute | src/core/countdown.js:72 | the seconds part places the remainder inside its minute to the second |
| Countdown.ModOfMod | src/core/countdown.js:70-72 | taking the remainder by a day or an hour first does not change the remainder by the next unit down, which is why the chained `%` of the source decomposes correctly |
| Countdown.DecomposeUnique | src/core/countdown.js:191-194 | any in-range tuple that rebuilds the remainder to the second is the decomposition, so the module's two copies of the arithmetic agree |
| Countdown.OneDayWindow | src/core/countdown.js:75 | `days == 1 && hours == 0` holds exactly when 86400000 <= diff < 90000000 |
| Countdown.LastMinuteWindow | src/core/countdown.js:80 | the final-minute condition, whose `seconds <= 59` clause always holds, is exactly 0 < diff < 60000 |
| Countdown.GetCountdown | src/core/countdown.js:183-197 | all zeros with total 0 once the target has passed; otherwise total is the remainder and the parts describe it |
| Countdown.TriggerOneDayEgg | src/core/countdown.js:202-203 | sets the one-day flag, changes nothing else, and produces the one-day egg |
| Countdown.TriggerLastMinute | src/core/countdown.js:249-250 | sets the one-minute egg flag, changes nothing else, and produces the enter effect |
| Countdown.OneDayStage | src/core/countdown.js:75-77 | the egg fires iff it is one day and zero hours out and the flag is clear; the flag afterwards records whether it fired |
| Countdown.FinalMinuteStage | src/core/countdown.js:80-88 | the flag equals the final-minute condition; enter runs only on a false-to-true change; exit runs on every tick outside the final minute |
| Countdown.RenderStage | src/core/countdown.js:91-143 | a repaint is attempted iff the seconds differ from the last ones; the seconds are recorded even when the element is missing; only a present element is painted; the repaint pulses nothing under the written rule and the changed digits under the intended one |
| Countdown.Tick | src/core/countdown.js:42-145 | diff <= 0 clears the interval, announces, and fires the callback iff one is set, with no other effect; otherwise the egg fires in [1 day, 1 day + 1 hour) at most once, the final minute is entered on the edge and left as a level, and a repaint happens iff the seconds value changed, showing the decomposition and, as written, pulsing no digit |
| Countdown.Arrive | src/core/countdown.js:56-67 | the terminal branch stops the interval, shows the arrival iff the element exists, fires the callback iff one is set, and changes nothing else |
| Countdown.Checks | src/core/countdown.js:75-88 | the two threshold checks never paint; the egg fires once in [1 day, 1 day + 1 hour) while its flag is clear; the final minute is entered on the edge and left as a level |
| Countdown.Run | src/core/countdown.js:69-144 | a running tick keeps the interval, announces nothing, and repaints iff the seconds changed; a repaint shows the decomposition and pulses nothing under the written rule, exactly the changed digits under the intended one |
| Countdown.IntendedTick | src/core/countdown.js:42-145 | the tick with the pulse loop working as meant: a repaint happens only while the target is ahead, shows the decomposition, and pulses exactly the digits that differ from the previous paint |
| Countdown.IntendedTickAgrees | src/core/countdown.js:106-131 | the written tick is the intended tick with every pulse dropped: the dead loop changes nothing but the pulse |
| Countdown.RunRules | src/core/countdown.js:69-144 | a running tick under the two pulse rules leaves the same state and the same effects, up to the pulse |
| Countdown.RenderStageRules | src/core/countdown.js:91-143 | the render gate under the two pulse rules leaves the same state and paints the same digits, up to the pulse |
| Countdown.PaintsAppend | src/core/countdown.js:91-100 | effects from before the render stage never count as a repaint |
| Countdown.Stop | src/core/countdown.js:165-170 | afterwards there is no interval and nothing else changes |
| Countdown.StopIdempotent | src/core/countdown.js:165-170 | stopping twice is stopping once |
| Countdown.Reset | src/core/countdown.js:175-177 | the last seconds value becomes negative and nothing else changes |
| Countdown.ResetForcesRender | src/core/countdown.js:91-92 | after a reset the next running tick always repaints |
| Countdown.StartAsWritten | src/core/countdown.js:150-160 | one immediate tick, then the interval is installed whatever the tick did |
| Countdown.Start | src/core/countdown.js:150-160 | one immediate tick; the interval is installed only when the target is still ahead |
| Countdown.RunTimerNewYearOnce | src/core/countdown.js:56-66 | while the interval drives the engine, the new-year callback fires at most once |
| Countdown.NewYearOncePerStart | src/core/countdown.js:150-160 | with the corrected start, the callback fires at most once per start, whatever times later ticks see |
| Countdown.StartAsWrittenFiresTwice | src/core/countdown.js:150-160 | as written, starting after the target fires the callback twice |
| Countdown.OneDayEggAtMostOnce | src/core/countdown.js:75-77 | over any sequence of ticks, even with time moving backward, the egg fires at most once, and never once its flag is set |
| Countdown.TickOneDayEggCount | src/core/countdown.js:75-77 | one tick produces the egg at most once |
| Countdown.CountAtMostOnce | src/core/countdown.js:75-77 | an effect list that starts with at most one egg and has none after it holds the egg at most once |
| Countdown.EnterOncePerVisit | src/core/countdown.js:82-84 | of two ticks inside the final minute, only the first can run the enter effect |
| Countdown.ExitIsLevel | src/core/countdown.js:85-88 | every tick outside the final minute runs the exit effect, even when the flag was already clear |
| Countdown.PulsedAsWritten | src/core/countdown.js:106-131 | as written, no digit ever pulses |
| Countdown.PulseIsDead | src/core/countdown.js:106-131 | going from 1:30 to 1:29 should pulse the seconds digit, but as written nothing pulses |
| Countdown.RenderPulsesChangedDigits | src/core/countdown.js:115-131 | in the intended tick, a repaint pulses exactly the digits that differ from the previous paint, and nothing on the first paint |
| Legacy.EdgeFinalMinuteStage | script.js:200-209 | the flag equals the final-minute condition; enter runs only on false-to-true, exit only on true-to-false; with the flag already matching, nothing happens |
| Legacy.Tick | script.js:172-269 | diff <= 0 clears the interval and shows the new-year message, throwing (caught) iff the subtitle is missing; otherwise the interval survives every exception; the egg fires in the one-day hour at most once; the final minute is edge-triggered both ways; entering it without a comment container throws and skips the repaint; otherwise a repaint happens iff the seconds value changed |
| Legacy.Arrive | script.js:177-186 | the terminal branch stops the interval, always announces, shows the arrival iff the element exists, and throws into the catch iff the subtitle is missing |
| Legacy.Checks | script.js:188-209 | the threshold checks never paint; the final minute is entered only on false-to-true and left only on true-to-false |
| Legacy.Run | script.js:188-265 | a running tick keeps the interval; it throws iff it enters the final minute without a comment container, and then skips the repaint; otherwise it repaints iff the seconds changed |
| Legacy.RepeatedTicksAreQuiet | script.js:200-209 | repeated ticks on the same side of the final-minute boundary neither enter nor leave it again |
| Legacy.CaughtTickRecovers | script.js:173-268 | a tick that throws on entering the final minute keeps the interval and the flag, so the next tick does not throw and repaints iff the seconds differ |
| Legacy.Simulate | script.js:1122-1137 | the target is now plus the given duration; the one-day and final-minute flags are cleared; the one-minute egg flag, the last seconds and the interval are kept |
| Legacy.SimulateOneDayFiresOnce | script.js:1122-1137 | after simulating one day left, the next tick fires the one-day egg and the tick after it does not |
| Legacy.SimulateLastMinuteEnters | script.js:1122-1137 | after simulating 59 seconds left, the next tick enters the final minute |
| Legacy.CreateDanmaku | script.js:326-336 | throws iff the container is absent; otherwise the new item goes last, the oldest is dropped at capacity, below capacity the earlier comments all stay in order, and the cap is kept |
| Legacy.CreateDanmakuAgrees | script.js:326-336 | with a container, the legacy eviction keeps the same comments as the module's |
| Danmaku.StyleFor | src/core/danmaku.js:104-110 | firework, rainbow and sparkle select their own class; any other type keeps the drawn one |
| Danmaku.ChooseLook | src/core/danmaku.js:100-134 | the style is a special class or one of the given styles; top is in [minTop, maxTop]; the font size is in [16, 24]; there is a tilt iff the draw exceeds 0.7, and it lies in [-10, 10]; the duration is within 40% of the speed |
| Danmaku.ChooseLookCovers | src/core/danmaku.js:100-134 | every look allowed for an ordinary comment comes from some draws: any given style, top and font size in range, any tilt in [-10, 10] or none, and any duration in [0.6, 1.4) times the speed |
| Danmaku.Admit | src/core/danmaku.js:87-93 | the item goes last; at capacity the rest is the old sequence without its first item; below capacity it is the old sequence; a length of at most max is kept |
| Danmaku.CreateDanmaku | src/core/danmaku.js:82-141 | without a container nothing changes; otherwise the new comment gets a fresh id and goes last, the oldest goes at capacity, the cap is kept, and id order is preserved |
| Danmaku.EvictsOldest | src/core/danmaku.js:87-93 | at capacity the comment that leaves is older than every comment that stays |
| Danmaku.RemoveById | src/core/danmaku.js:144-151 | exactly the comments with another id remain |
| Danmaku.RemoveByIdKeepsOrder | src/core/danmaku.js:144-151 | removing a comment keeps the ids of the others strictly increasing, that is, in the order they were appended |
| Danmaku.OnAnimationEnd | src/core/danmaku.js:144-151 | the handler removes exactly the element it was attached to and keeps the stream valid |
| Danmaku.AnimationEndUndoesCreate | src/core/danmaku.js:141-151 | below capacity, creating a comment and ending its animation leaves the container as it was |
| Danmaku.SendDanmaku | src/core/danmaku.js:163-169 | blank text does nothing; otherwise a comment with the trimmed text is created |
| Danmaku.SendDanmakuRecorded | src/core/danmaku.js:25-41 | blank text does nothing; otherwise the trimmed comment is created and heads the history as "user"; it joins the presets iff it is not a default comment; a storage exception needs a malformed stored list |
| Danmaku.RecordHistory | src/core/danmaku.js:36 | the history write throws iff the stored history is not an array and otherwise puts the comment first as "user", leaving the presets untouched |
| Danmaku.RecordPreset | src/core/danmaku.js:39-41 | the preset write throws only for a malformed stored list, leaves the history untouched, and otherwise leaves the comment among the presets |
| Danmaku.StartAutoDanmaku | src/core/danmaku.js:200-207 | the old interval is cleared before the new one, so exactly one feed interval runs |
| Danmaku.StopAutoDanmaku | src/core/danmaku.js:213-218 | the handle is null and no feed interval runs |
| Danmaku.AutoFeedSingleInterval | src/core/danmaku.js:200-207 | starting the feed any number of times leaves one interval, the last one, and stopping it leaves none |
| Danmaku.AutoFeedTick | src/core/danmaku.js:202-206 | each firing adds one of the default comments |
| Danmaku.CleanupDanmaku | src/core/danmaku.js:305-319 | the feed stops and a present container is emptied |
| Danmaku.TitleClick | src/core/danmaku.js:277-297 | the counter goes up by one; at five the egg fires and the counter restarts at zero |
| Danmaku.ClicksFireEveryFifth | script.js:950-972 | from a counter below five, n clicks fire (count + n) / 5 eggs and leave (count + n) % 5 |
| DanmakuPool.NewPool | src/utils/danmakuPool.js:17-30 | max(0, initialSize) distinct new elements, the next ones the document makes; size is initialSize; a non-negative size reports available == total == initialSize |
| DanmakuPool.GetStatus | src/utils/danmakuPool.js:122-127 | available is the free list's length and total is the size counter |
| DanmakuPool.NewPoolBounded | src/utils/danmakuPool.js:17-30 | a pool built with 0 <= initialSize <= maxSize is within bounds |
| DanmakuPool.Acquire | src/utils/danmakuPool.js:49-65 | a non-empty free list pops its last element (available - 1, total kept); an empty one makes a new element, counted below maxSize and temporary otherwise; the bounds are kept |
| DanmakuPool.Release | src/utils/danmakuPool.js:72-84 | true and the free list grows by the element iff it is shorter than maxSize; otherwise false and nothing changes; the bounds are kept |
| DanmakuPool.AcquireReleaseRoundTrip | src/utils/danmakuPool.js:49-84 | releasing the element just taken from the free list restores the pool |
| DanmakuPool.Clear | src/utils/danmakuPool.js:110-116 | available and total are both zero |
| DanmakuPool.AvailableMayExceedTotal | src/utils/danmakuPool.js:59-79 | an element taken before `clear` and released after it leaves available > total |
| DanmakuPool.TemporaryIsAdopted | src/utils/danmakuPool.js:59-79 | a temporary element is taken into the free list on release |
| DanmakuPool.InitDanmakuPool | src/utils/danmakuPool.js:141-146 | the first call makes the pool; later calls return it and ignore their arguments |
| DanmakuPool.SceneInit | src/utils/danmakuPool.js:141-146 | on the page, a first initialisation makes a pool of new elements, none of them on screen or carrying a handler, and moves the document's counter past them; a later one changes nothing |
| DanmakuPool.InitIdempotent | src/utils/danmakuPool.js:141-146 | a second initialisation returns the first instance |
| DanmakuPool.CleanupDanmakuPool | src/utils/danmakuPool.js:231-236 | the global instance becomes null |
| DanmakuPool.CleanupThenInit | src/utils/danmakuPool.js:231-236 | after clean-up, initialisation builds a new pool from its arguments |
| DanmakuPool.SceneCleanup | src/utils/danmakuPool.js:231-236 | on the page, the instance is dropped and `clear` takes its free elements off the page; everything else stays, and no element comes to appear twice |
| DanmakuPool.CreatePooledDanmaku | src/utils/danmakuPool.js:167-223 | the element comes from the pool when there is one and is otherwise a new one; it ends up last in the container and appears there once, appended if it was not on screen; it carries one more `animationend` handler while no other element's count changes; the comment carries the text; it runs the tilted animation iff it is tilted now or was tilted on an earlier use; a special type overrides the style; top is in [minTop, maxTop]; the font size is in [16, 24]; a tilt is in [-10, 10] |
| DanmakuPool.MoveToEnd | src/utils/danmakuPool.js:213 | `appendChild` puts the element last and keeps it once: the other elements stay, and an element not yet on screen is simply appended |
| DanmakuPool.RunSceneDistinct | src/utils/danmakuPool.js:141-236 | over any run of initialisations, placements, animation ends and clean-ups, no element is on screen twice and every element in play was made by the document |
| DanmakuPool.Detach | src/utils/danmakuPool.js:216-217 | exactly the other elements remain, none twice if none was, and an absent element changes nothing |
| DanmakuPool.ReleaseTimes | src/utils/danmakuPool.js:72-84 | n releases of one element add it to the free list once per release that finds room, so min(n, room) copies, and change nothing else |
| DanmakuPool.PooledAnimationEnd | src/utils/danmakuPool.js:216-223 | every handler the element carries runs: the element leaves the container and is released once per handler; an element without a handler is left alone |
| DanmakuPool.PooledRoundTrip | src/utils/danmakuPool.js:167-223 | on a page whose pool counts elements as the document does, placing a comment on a free element that carries no handler yet and ending its animation restores the pool |
| DanmakuPool.ReusedElementReleasedTwice | src/utils/danmakuPool.js:167-223 | a reused element keeps the handler of its first use, since `resetElement` clones only an element that still has a parent; so in a one-element pool the second animation end releases it twice and the free list holds it twice |
| DanmakuPool.DoublyFreedElementShownOnce | src/utils/danmakuPool.js:213 | both copies of a doubly freed element are handed out, but the page shows the element once, now with four handlers |
| DanmakuPool.CleanupKeepsElementsApart | src/utils/danmakuPool.js:141-236 | a comment from a pool made after a clean-up is a new element: the page holds the old and the new comment with one handler each, and the old one's animation end leaves the new one on screen |
| DanmakuPool.TiltOutlivesReset | src/utils/danmakuPool.js:91-105 | `resetElement` leaves `animationName` alone, so an element tilted on its first use runs the tilted animation on its next use, even when that use draws no tilt |
| Storage.GetStorage | src/utils/storage.js:37-48 | the stored value, or the default when the key is absent or does not parse |
| Storage.SetStorage | src/utils/storage.js:57-65 | returns true iff the store accepts writes, stores the value, and touches no other key |
| Storage.RemoveStorage | src/utils/storage.js:72-80 | the key is gone and no other key changes |
| Storage.SetThenGet | src/utils/storage.js:37-65 | a written value reads back as written, whatever the default |
| Storage.RemoveThenGet | src/utils/storage.js:37-80 | after removal a read yields the default |
| Storage.SetKeepsOtherKeys | src/utils/storage.js:57-65 | a write to one key does not change what another key reads |
| Storage.ClearAllStorage | src/utils/storage.js:86-97 | the three application keys are gone and every other key is unchanged |
| Storage.GetSettings | src/utils/storage.js:107-110 | holds every default key; a persisted key overrides its default |
| Storage.SaveSettings | src/utils/storage.js:117-123 | a successful save reads back as the old settings merged with the new keys; a failed one changes nothing |
| Storage.UpdateSetting | src/utils/storage.js:129-133 | one key takes the new value and every other setting keeps its value |
| Storage.ResetSettings | src/utils/storage.js:139-141 | the settings read back as the defaults |
| Storage.SaveSettingsRoundTrip | src/utils/storage.js:117-133 | a saved key reads back, and an unrelated setting keeps its value |
| Storage.AddHistory | src/utils/storage.js:168-184 | throws iff the stored history is not an array; otherwise the new record goes first, the older ones follow in order, the length is capped at 100, and no other key changes |
| Storage.ClearHistory | src/utils/storage.js:190-192 | returns true iff the store accepts writes; a successful clear leaves an empty history, a failed one changes nothing, and no other key is touched |
| Storage.AddHistoryAllBounded | src/utils/storage.js:152-184 | any series of additions leaves the newest records first, then the older ones, cut to 100 |
| Storage.AddHistoryOnce | src/utils/storage.js:168-184 | one addition to a writable store with at most 100 records succeeds and leaves the new record first, cut to 100 |
| Storage.HistoryKeepsNewestHundred | src/utils/storage.js:168-184 | 110 additions to an empty history leave exactly the 100 newest, newest first |
| Storage.AddUserDanmaku | src/utils/storage.js:207-222 | a duplicate is refused and changes nothing; otherwise the result is whether the write succeeded, the text goes first, and exactly the oldest preset is dropped when there are already 20 or more, so the length stays at most 20 and no duplicates appear; other keys stay |
| Storage.Without | src/utils/storage.js:231 | exactly the other values remain, each as often as before; the length shrinks iff the value was present |
| Storage.WithoutAppend | src/utils/storage.js:231 | `filter` works in place: filtering a concatenation is filtering each part, so the remaining presets keep their order |
| Storage.RemoveUserDanmaku | src/utils/storage.js:229-238 | false and no change when the text is absent; otherwise every occurrence is removed, the other presets keep their order and repetitions, a failed write changes nothing, and no other key is touched |
| Storage.ClearUserDanmaku | src/utils/storage.js:244-246 | returns true iff the store accepts writes; a successful clear leaves no presets, a failed one changes nothing, and no other key is touched |
| Storage.AddUserDanmakuTwice | src/utils/storage.js:207-222 | adding the same preset a second time is refused |
| Themes.ThemeIndex | src/utils/themes.js:13-104 | a theme id's position among the five ids |
| Themes.GetThemeInfoAsWritten | src/utils/themes.js:200-202 | as written, the lookup is undefined only for ids that are neither themes nor `Object.prototype` names |
| Themes.GetThemeInfo | src/utils/themes.js:200-202 | a configuration iff the id is one of the five themes, with that id and name |
| Themes.GetCurrentTheme | src/utils/themes.js:114-117 | always truthy; the persisted theme when it is truthy; "default" when the persisted theme is falsy or nothing is persisted |
| Themes.Install | src/utils/themes.js:130-141 | applies the theme and returns true; in a writable store it becomes the current theme |
| Themes.SetThemeAsWritten | src/utils/themes.js:124-141 | as written, the call throws iff the id is an `Object.prototype` name, and otherwise succeeds iff the id is a theme |
| Themes.SetTheme | src/utils/themes.js:124-141 | succeeds iff the id is a theme; an unknown id changes nothing; a known one becomes the current theme |
| Themes.SetThemeAgrees | src/utils/themes.js:124-128 | outside `Object.prototype`'s names, the corrected and written versions agree |
| Themes.PrototypeIdsPassTheGuard | src/utils/themes.js:124-128 | "constructor" makes the written setTheme throw and the written getThemeInfo non-null; the corrected versions refuse it |
| Themes.Init | src/utils/themes.js:180-185 | applies the persisted theme iff it names a theme, and "default" when nothing is persisted |
| Themes.InitAsWritten | src/utils/themes.js:180-185 | as written, init throws iff the persisted theme is an `Object.prototype` name, and otherwise applies only a theme id, the persisted one |
| Themes.InitAgrees | src/utils/themes.js:180-185 | outside `Object.prototype`'s names, the corrected and written init agree |
| Themes.InitThrowsOnPrototypeName | src/utils/themes.js:180-185 | with "constructor" persisted as the theme, the written init throws and the corrected one applies nothing |
| Themes.NextThemeIndex | src/utils/themes.js:223-231 | one past the current theme's index, wrapping modulo 5; an unknown current theme goes to index 0 |
| Themes.OnKeyDown | src/utils/themes.js:208-232 | only Alt+1..5 and Alt+T or Alt+t are shortcuts; a digit selects the theme at that position, and T selects the next theme |
| Themes.AltTAdvances | src/utils/themes.js:223-231 | one Alt+T press moves the current theme one position on, from the last back to the first |
| Themes.AltTFromUnknown | src/utils/themes.js:223-231 | from a persisted value that is not a theme id, Alt+T selects "default" |
| Themes.IndexOfThemeId | src/utils/themes.js:13-104 | the five ids are distinct: each is found at its own position |
| Themes.AltDigitSelects | src/utils/themes.js:211-220 | Alt+k selects and persists the theme at position k - 1, for every k in 1..5 |
| Helpers.ScaledFloorRange | src/utils/helpers.js:86-100 | a draw scaled by a positive count floors into [0, n) |
| Helpers.RandomInt | src/utils/helpers.js:98-100 | the result lies in [min, max], negative ranges included; randomInt(n, n) is n |
| Helpers.RandomIntCovers | src/utils/helpers.js:98-100 | every integer in [min, max] comes from some draw |
| Helpers.RandomIndex | src/utils/helpers.js:86-88 | a valid index into a non-empty array |
| Helpers.RandomItem | src/utils/helpers.js:86-88 | an element of a non-empty array; the only element of a singleton; undefined for an empty one |
| Helpers.RandomItemCovers | src/utils/helpers.js:86-88 | every element of a non-empty array comes from some draw |
| Helpers.ThrottleStep | src/utils/helpers.js:16-26 | a call runs iff the throttle flag is clear and then sets the flag; a timer firing clears it |
| Helpers.ThrottleBurst | src/utils/helpers.js:16-26 | a burst of calls runs the function once, immediately, with the first call's arguments |
| Helpers.ThrottleDropsWhileThrottled | src/utils/helpers.js:16-26 | while the flag is set, every call is dropped |
| Helpers.ThrottleReopens | src/utils/helpers.js:23 | after the timer fires, the next call runs |
| Helpers.ThrottleRateBound | src/utils/helpers.js:16-26 | a run executes at most one more time than the timer fires |
| Helpers.DebounceStep | src/utils/helpers.js:38-48 | a call replaces the pending arguments and runs nothing; the timer runs the pending call |
| Helpers.Invokes | src/utils/helpers.js:38-48 | one call event per argument list, in order |
| Helpers.DebounceBurstPending | src/utils/helpers.js:38-48 | a burst runs nothing and leaves the last call's arguments pending |
| Helpers.DebounceBurstThenFire | src/utils/helpers.js:38-48 | a burst followed by the timer runs exactly once, with the last call's arguments |
| Helpers.RunDebounceAppend | src/utils/helpers.js:38-48 | running two event sequences in a row is running their concatenation |
| Js.Trim | src/core/danmaku.js:26-30 | no whitespace at either end; the result is empty iff the text is all whitespace; the result sits in the text with only whitespace around it |
| Js.TrimIdempotent | src/core/danmaku.js:26-30 | trimming twice is trimming once |

## Left out

- Presentation is not modelled: DOM construction, CSS classes and variables, `applyTheme`, toasts, ripples, mouse sparkles, the theme selector. A repaint is one `Render` effect carrying the digits and the pulsed positions.
- Audio is not modelled: the Web Audio calls of `src/core/audio.js` and `script.js` are foreign calls.
- The timed bursts scheduled with `setTimeout` are effects or flags without contents: the one-day burst is the `OneDayEgg` effect of `Countdown.Tick`, the new-year messages are its `NewYear` effect, and the firework show is the boolean that `Danmaku.TitleClick` returns. `setInterval` handles are plain numbers.
- Danmaku.StartAutoDanmaku: the five initial comments that `startAutoDanmaku` schedules with `setTimeout` are not modelled. Neither `stopAutoDanmaku` nor `cleanupDanmaku` cancels them, so they still arrive after a clean-up, and every restart of the feed queues five more. Each one that fires does what one `Danmaku.AutoFeedTick` does.
- Danmaku.Admit: the container is assumed to hold comment elements only. The source compares the number of element children with the cap but removes `firstChild`, which may be a text node; then a text node goes instead of the oldest comment and the cap is passed by one. `Danmaku.CreateDanmaku` and `Legacy.CreateDanmaku` both rest on this assumption.
- Helpers.ThrottleStep: the wrapped function is assumed to return. `throttle` calls it before setting its flag, so a call that throws leaves the flag clear and the next call runs again; the model's accepted call always sets the flag.
- `IntersectionObserver` observing and unobserving comments is not modelled. It does not change the container.
- `JSON.stringify` followed by `JSON.parse` is taken to return the value unchanged. Numbers are reals, and `exportStorage` and `importStorage` are not modelled.
- Storage.GetSettings: spreading a persisted settings value that is an array or a string adds index keys in JavaScript. The model's `Spread` adds no keys for such values.
- Storage.ClearAllStorage: the `catch` that returns false is not modelled. Removing a key does not throw in the model.
- Storage.RemoveStorage: as above, the model's removal never fails.
- Themes.OnKeyDown: a key is one character. Multi-character key names such as "Tab" are not modelled. They match none of the shortcuts in the source either.
- Themes.Init: `init` looks up a non-string persisted theme after converting it to a string, so the array `["ocean"]` applies "ocean" and `["constructor"]` throws. The model applies only string theme ids, and `InitAsWritten` throws only for a string `Object.prototype` name.
- Danmaku.ChooseLook: `Math.floor(Math.random() * n)` is taken over the reals. Floating-point rounding of the product is not modelled. The duration is a real.
- Legacy.CreateDanmaku: only the eviction of the legacy `createDanmaku` is modelled. Its look is not modelled.
- DanmakuPool.PooledAnimationEnd: every handler releases into the current global pool. In the source a handler made before `cleanupDanmakuPool` releases into the old instance it captured; the model does not keep the two apart.
- Legacy.Tick: `clearInterval` in the terminal branch keeps the old handle in `countdownInterval`. The model records the interval as gone.
- Countdown.Start: the handle of an earlier start is not cleared. Starting twice leaks an interval in the source, and the model keeps only the newest handle.
- Helpers.RandomInt: arguments that are not integers are not modelled.
- `src/core/danmaku.js` declares and exports `sendDanmaku` twice, at lines 25 and 163, which an ES module rejects. Both are modelled, as `SendDanmakuRecorded` and `SendDanmaku`.
- Timer handles are assumed truthy, so a handle of 0 is not modelled.
- `simulateCountdown` builds a `Date`. Its range limit and non-integer arguments are not modelled.

## Findings

| source | as written | input that shows it | evidently intended | confidence | as-written member | corrected member |
|---|---|---|---|---|---|---|
| src/core/countdown.js:150-160 | `startCountdown` runs one tick, then installs the interval even when that tick stopped the countdown | start at now = 5000 with the target at 1000: the immediate tick fires the new-year callback, and the interval's first tick fires it again | the terminal tick happens once, so the callback fires once | high (not executed) | Countdown.StartAsWrittenFiresTwice | Countdown.NewYearOncePerStart |
| src/core/countdown.js:106-131 | the element is emptied before the loop, so the `existingNumbers[index]` lookup never finds an earlier span | going from 1:30 to 1:29 should pulse the seconds digit; nothing pulses | the digits that changed since the last paint pulse | high (not executed) | Countdown.PulseIsDead | Countdown.RenderPulsesChangedDigits |
| src/utils/themes.js:124-128 | `THEMES[themeId]` also finds names inherited from `Object.prototype` | setTheme("constructor") passes the guard and then throws on reading `colors`; getThemeInfo("constructor") returns a function instead of null | only the five theme ids are accepted | high (not executed) | Themes.PrototypeIdsPassTheGuard | Themes.SetTheme |
| src/utils/themes.js:180-185 | `init` tests `THEMES[themeId]` with the same inherited lookup before applying the theme | settings that persist "constructor" as the theme: the guard passes and applying it throws on reading `colors` | only a persisted theme id is applied; anything else is ignored | high (not executed) | Themes.InitThrowsOnPrototypeName | Themes.Init |

=== FILE: countdown.dfy ===
/**
  The countdown engine of `src/core/countdown.js`.

  The engine keeps a handful of module-level variables: the interval
  handle, the last rendered seconds value, the "one day left" flag, the
  "final minute" egg flag and the final-minute level flag. Here they form
  one immutable `State`, and a tick is a pure function from a state, the
  current time `now` and the target instant (both integer milliseconds)
  to the next state and the list of visible effects the tick produced.
 */
module Countdown {
  import opened Js

  const SecondMs: int := 1000
  const MinuteMs: int := 60000
  const HourMs: int := 3600000
  const DayMs: int := 86400000

  // ---------------------------------------------------------------------
  // Decomposition (countdown.js:69-72, 191-194)

  /** Whole days, hours, minutes and seconds of a remaining duration. */
  datatype Parts = Parts(days: int, hours: int, minutes: int, seconds: int)

  /** The milliseconds a decomposition stands for. */
  function PartsMs(p: Parts): int {
    p.days * DayMs + p.hours * HourMs + p.minutes * MinuteMs + p.seconds * SecondMs
  }

  /** Every component within its natural bound. */
  predicate InRange(p: Parts) {
    p.days >= 0 && 0 <= p.hours < 24 && 0 <= p.minutes < 60 && 0 <= p.seconds < 60
  }

  /** `p` is the decomposition of `diff` to whole seconds. */
  predicate Describes(p: Parts, diff: int) {
    InRange(p) && PartsMs(p) <= diff < PartsMs(p) + SecondMs
  }

  /** Floor division by a day, then the remainder by the next unit down.
      JavaScript's `%` truncates toward zero; `diff` is positive here, so it
      agrees with Dafny's `%`. */
  function Decompose(diff: int): (p: Parts)
    requires diff > 0
    ensures Describes(p, diff)
  {
    var days := diff / DayMs;
    var hours := (diff % DayMs) / HourMs;
    var minutes := (diff % HourMs) / MinuteMs;
    var seconds := (diff % MinuteMs) / SecondMs;
    ModOfMod(diff, 24, HourMs);
    ModOfMod(diff, 60, MinuteMs);
    assert diff == days * DayMs + diff % DayMs;
    assert diff % DayMs == hours * HourMs + diff % HourMs;
    assert diff % HourMs == minutes * MinuteMs + diff % MinuteMs;
    assert diff % MinuteMs == seconds * SecondMs + diff % SecondMs;
    Parts(days, hours, minutes, seconds)
  }

  /** Division with remainder has one answer. */
  lemma DivModUnique(x: int, d: int, q: int, r: int)
    requires d > 0 && x == q * d + r && 0 <= r < d
    ensures x / d == q && x % d == r
  {
    var q', r' := x / d, x % d;
    assert (q - q') * d == q * d - q' * d;
    MultipleInsideUnit(q - q', d);
  }

  /** The only multiple of `d` strictly between `-d` and `d` is zero. */
  lemma MultipleInsideUnit(a: int, d: int)
    requires d > 0 && -d < a * d < d
    ensures a == 0
  {
  }

  /** Taking the remainder by a multiple `k * unit` first does not change
      the remainder by `unit`. */
  lemma ModOfMod(x: int, k: int, unit: int)
    requires k > 0 && unit > 0
    ensures (x % (k * unit)) % unit == x % unit
  {
    var big := k * unit;
    assert big > 0;
    var q1, r1 := x / big, x % big;
    var q2, r2 := r1 / unit, r1 % unit;
    assert x == (q1 * k + q2) * unit + r2 by {
      assert x == q1 * big + r1;
      assert r1 == q2 * unit + r2;
      assert q1 * big == q1 * k * unit;
    }
    DivModUnique(x, unit, q1 * k + q2, r2);
  }

  /** The seconds part places `diff` inside its minute to the second. */
  lemma SecondsOfMinute(diff: int)
    requires diff > 0
    ensures Describes(Parts(0, 0, 0, Decompose(diff).seconds), diff % MinuteMs)
  {
    var x := diff % MinuteMs;
    assert x == (x / SecondMs) * SecondMs + x % SecondMs;
  }

  /** The decomposition is the only one: any in-range tuple that
      reconstructs `diff` to the second is what `Decompose` returns. */
  lemma DecomposeUnique(diff: int, p: Parts)
    requires diff > 0 && Describes(p, diff)
    ensures p == Decompose(diff)
  {
    var q := Decompose(diff);
    assert p.days * DayMs <= diff < p.days * DayMs + DayMs;
    assert q.days * DayMs <= diff < q.days * DayMs + DayMs;
    assert p.days == q.days;
    assert p.hours == q.hours;
    assert p.minutes == q.minutes;
  }

  /** `days == 1 && hours == 0` holds exactly in the hour that begins one
      day before the target. */
  lemma OneDayWindow(diff: int)
    requires diff > 0
    ensures var p := Decompose(diff);
            (p.days == 1 && p.hours == 0) <==> DayMs <= diff < DayMs + HourMs
  {
    var p := Decompose(diff);
    if DayMs <= diff < DayMs + HourMs {
      assert p.days * DayMs <= diff < p.days * DayMs + DayMs;
      assert p.days == 1;
    }
  }

  /** The final-minute condition, whose `seconds <= 59` clause always
      holds, is exactly `diff < 60000`. */
  lemma LastMinuteWindow(diff: int)
    requires diff > 0
    ensures var p := Decompose(diff);
            (p.days == 0 && p.hours == 0 && p.minutes == 0 && p.seconds <= 59) <==> diff < MinuteMs
  {
  }

  // ---------------------------------------------------------------------
  // getCountdown (countdown.js:183-197)

  datatype Snapshot = Snapshot(days: int, hours: int, minutes: int, seconds: int, total: int)

  /** A pure read of the remaining time, usable whether or not the
      countdown runs. */
  function GetCountdown(now: int, target: int): (snap: Snapshot)
    ensures target - now <= 0 ==> snap == Snapshot(0, 0, 0, 0, 0)
    ensures target - now > 0 ==>
              && snap.total == target - now
              && Describes(Parts(snap.days, snap.hours, snap.minutes, snap.seconds), target - now)
  {
    var diff := target - now;
    if diff <= 0 then Snapshot(0, 0, 0, 0, 0)
    else
      var p := Decompose(diff);
      Snapshot(p.days, p.hours, p.minutes, p.seconds, diff)
  }

  // ---------------------------------------------------------------------
  // Engine state and effects

  /** The module-level variables of countdown.js:11-23, plus the digit
      values currently painted in the countdown element (`shown`). */
  datatype State = State(
    timer: Option<nat>,
    lastSeconds: int,
    oneDayEggTriggered: bool,
    oneMinuteEggTriggered: bool,
    isLastMinute: bool,
    shown: seq<int>)

  /** The values the module starts with. */
  const Initial := State(None, -1, false, false, false, [])

  /** What a tick does that can be seen outside the state. */
  datatype Effect =
    | ShowArrived      // the countdown element now reads "arrived"
    | NewYear          // the registered new-year callback ran
    | OneDayEgg        // triggerOneDayEgg: toast, firework burst, page class
    | EnterLastMinute  // triggerLastMinuteAnimation
    | ExitLastMinute   // removeLastMinuteAnimation
    | Render(parts: Parts, pulse: set<int>)  // digits repainted; `pulse` marks changed positions
    | MissingDisplay   // the countdown element is absent: warn, skip painting

  /** What the page offers a tick: whether the countdown element exists and
      whether a new-year callback has been registered. */
  datatype Page = Page(hasDisplay: bool, hasCallback: bool)

  datatype Step = Step(state: State, effects: seq<Effect>)

  /** The effects include a repaint attempt (painted or skipped for lack of
      an element). */
  predicate Paints(effects: seq<Effect>) {
    exists i :: 0 <= i < |effects| && (effects[i].Render? || effects[i].MissingDisplay?)
  }

  /** How many times `e` occurs in `effects`. */
  function Count(e: Effect, effects: seq<Effect>): nat {
    multiset(effects)[e]
  }

  // ---------------------------------------------------------------------
  // Flag setters and the three stages of a tick

  /** triggerOneDayEgg (countdown.js:202-203). */
  function TriggerOneDayEgg(s: State): (r: Step)
    ensures r.state.oneDayEggTriggered
    ensures r.state.(oneDayEggTriggered := s.oneDayEggTriggered) == s
    ensures r.effects == [OneDayEgg]
  {
    Step(s.(oneDayEggTriggered := true), [OneDayEgg])
  }

  /** triggerLastMinuteAnimation (countdown.js:249-250). */
  function TriggerLastMinute(s: State): (r: Step)
    ensures r.state.oneMinuteEggTriggered
    ensures r.state.(oneMinuteEggTriggered := s.oneMinuteEggTriggered) == s
    ensures r.effects == [EnterLastMinute]
  {
    Step(s.(oneMinuteEggTriggered := true), [EnterLastMinute])
  }

  /** The one-day check (countdown.js:75-77). */
  function OneDayStage(s: State, p: Parts): (r: Step)
    ensures (OneDayEgg in r.effects) <==> p.days == 1 && p.hours == 0 && !s.oneDayEggTriggered
    ensures r.effects == [] || r.effects == [OneDayEgg]
    ensures r.state == s.(oneDayEggTriggered := s.oneDayEggTriggered || OneDayEgg in r.effects)
  {
    if p.days == 1 && p.hours == 0 && !s.oneDayEggTriggered then TriggerOneDayEgg(s)
    else Step(s, [])
  }

  /** The final-minute check of countdown.js:80-88: the enter branch runs on
      a false-to-true change only, the exit branch on every tick outside the
      final minute, whatever the flag was. */
  function FinalMinuteStage(s: State, p: Parts): (r: Step)
    ensures var lastMinute := p.days == 0 && p.hours == 0 && p.minutes == 0 && p.seconds <= 59;
            && r.state.isLastMinute == lastMinute
            && ((EnterLastMinute in r.effects) <==> lastMinute && !s.isLastMinute)
            && ((ExitLastMinute in r.effects) <==> !lastMinute)
            && r.state.oneMinuteEggTriggered == (s.oneMinuteEggTriggered || EnterLastMinute in r.effects)
            && r.state.(isLastMinute := s.isLastMinute, oneMinuteEggTriggered := s.oneMinuteEggTriggered) == s
            && |r.effects| <= 1
    ensures forall e :: e in r.effects ==> e == EnterLastMinute || e == ExitLastMinute
  {
    var lastMinute := p.days == 0 && p.hours == 0 && p.minutes == 0 && p.seconds <= 59;
    if lastMinute && !s.isLastMinute then TriggerLastMinute(s.(isLastMinute := true))
    else if !lastMinute then Step(s.(isLastMinute := false), [ExitLastMinute])
    else Step(s, [])
  }

  /** Which pulse a repaint gives: the loop of countdown.js:106-131 as
      written, or the pulse of the digits that changed, which that loop is
      meant to give. */
  datatype PulseRule = AsWritten | Intended

  /** The positions a repaint from `shown` to `values` pulses under `rule`. */
  function PulseOf(rule: PulseRule, shown: seq<int>, values: seq<int>): (r: set<int>)
    ensures rule == AsWritten ==> r == {}
    ensures rule == Intended ==> r == Pulsed(shown, values)
  {
    match rule
    case AsWritten => PulsedAsWritten(values)
    case Intended => Pulsed(shown, values)
  }

  /** The render gate of countdown.js:91-143: repaint only when the seconds
      value differs from the last one, and record it before looking for the
      element, so a missing element still consumes the gate. */
  function RenderStage(s: State, p: Parts, hasDisplay: bool, rule: PulseRule): (r: Step)
    ensures r.state.lastSeconds == p.seconds
    ensures Paints(r.effects) <==> s.lastSeconds != p.seconds
    ensures r.effects == [] || |r.effects| == 1
    ensures forall e :: e in r.effects ==> e.Render? || e.MissingDisplay?
    ensures (exists q, pulse :: Render(q, pulse) in r.effects) ==> hasDisplay
    ensures forall q, pulse :: Render(q, pulse) in r.effects ==>
              q == p && (rule == AsWritten ==> pulse == {})
              && (rule == Intended ==> pulse == Pulsed(s.shown, [p.days, p.hours, p.minutes, p.seconds]))
    ensures r.state.(lastSeconds := s.lastSeconds, shown := s.shown) == s
  {
    if s.lastSeconds != p.seconds then
      var s1 := s.(lastSeconds := p.seconds);
      if !hasDisplay then
        assert [MissingDisplay][0].MissingDisplay?;
        Step(s1, [MissingDisplay])
      else
        var values := [p.days, p.hours, p.minutes, p.seconds];
        var pulse := PulseOf(rule, s.shown, values);
        assert [Render(p, pulse)][0].Render?;
        Step(s1.(shown := values), [Render(p, pulse)])
    else Step(s, [])
  }

  // ---------------------------------------------------------------------
  // The tick (countdown.js:42-145)

  /** One tick at time `now`, as written. */
  function Tick(s: State, now: int, target: int, page: Page): (r: Step)
    // the terminal case: stop, announce, return before any threshold logic
    ensures target - now <= 0 ==>
              && r.state.timer == None
              && (NewYear in r.effects <==> page.hasCallback)
              && (ShowArrived in r.effects <==> page.hasDisplay)
              && (forall e :: e in r.effects ==> e == ShowArrived || e == NewYear)
              && r.state.(timer := s.timer, shown := s.shown) == s
    ensures target - now > 0 ==> r.state.timer == s.timer && NewYear !in r.effects
    // the one-day egg fires in the hour before "one day left", once
    ensures (OneDayEgg in r.effects) <==> DayMs <= target - now < DayMs + HourMs && !s.oneDayEggTriggered
    ensures r.state.oneDayEggTriggered == (s.oneDayEggTriggered || OneDayEgg in r.effects)
    // the final minute: enter on the edge, exit as a level
    ensures target - now > 0 ==> (r.state.isLastMinute <==> target - now < MinuteMs)
    ensures (EnterLastMinute in r.effects) <==> 0 < target - now < MinuteMs && !s.isLastMinute
    ensures (ExitLastMinute in r.effects) <==> target - now >= MinuteMs
    ensures r.state.oneMinuteEggTriggered == (s.oneMinuteEggTriggered || EnterLastMinute in r.effects)
    // the render gate
    ensures target - now > 0 ==> Describes(Parts(0, 0, 0, r.state.lastSeconds), (target - now) % MinuteMs)
    ensures Paints(r.effects) <==> target - now > 0 && s.lastSeconds != Decompose(target - now).seconds
    // a repaint shows the decomposition and, as written, pulses no digit
    ensures forall q, pulse :: Render(q, pulse) in r.effects ==>
              target - now > 0 && q == Decompose(target - now) && pulse == {}
  {
    var diff := target - now;
    if diff <= 0 then Arrive(s, page) else Run(s, diff, page, AsWritten)
  }

  /** A tick under a pulse rule: the terminal branch or a running tick. */
  function TickWith(s: State, now: int, target: int, page: Page, rule: PulseRule): (r: Step)
    ensures target - now <= 0 ==> r == Arrive(s, page)
    ensures target - now > 0 ==> r == Run(s, target - now, page, rule)
  {
    var diff := target - now;
    if diff <= 0 then Arrive(s, page) else Run(s, diff, page, rule)
  }

  /** The tick with the intended pulse: everything as in `Tick`, except
      that a repaint pulses the digits that changed since the last paint. */
  function IntendedTick(s: State, now: int, target: int, page: Page): (r: Step)
    ensures forall q, pulse :: Render(q, pulse) in r.effects ==>
              target - now > 0 && q == Decompose(target - now)
              && pulse == Pulsed(s.shown, [q.days, q.hours, q.minutes, q.seconds])
  {
    var diff := target - now;
    if diff <= 0 then Arrive(s, page) else Run(s, diff, page, Intended)
  }

  /** The terminal branch (countdown.js:56-67): the element reads
      "arrived", the interval stops, the callback runs if there is one, and
      the tick returns before any other check. */
  function Arrive(s: State, page: Page): (r: Step)
    ensures r.state.timer == None
    ensures NewYear in r.effects <==> page.hasCallback
    ensures ShowArrived in r.effects <==> page.hasDisplay
    ensures forall e :: e in r.effects ==> e == ShowArrived || e == NewYear
    ensures r.state.(timer := s.timer, shown := s.shown) == s
  {
    var shown := if page.hasDisplay then [] else s.shown;
    Step(Stop(s).(shown := shown),
         (if page.hasDisplay then [ShowArrived] else []) + (if page.hasCallback then [NewYear] else []))
  }

  /** The two threshold checks of a running tick (countdown.js:71-88): the
      one-day check, then the final-minute check. Neither paints. */
  function Checks(s: State, diff: int): (r: Step)
    requires diff > 0
    ensures r.state.timer == s.timer && r.state.shown == s.shown && r.state.lastSeconds == s.lastSeconds
    ensures forall e :: e in r.effects ==> e == OneDayEgg || e == EnterLastMinute || e == ExitLastMinute
    ensures (OneDayEgg in r.effects) <==> DayMs <= diff < DayMs + HourMs && !s.oneDayEggTriggered
    ensures Count(OneDayEgg, r.effects) == (if OneDayEgg in r.effects then 1 else 0)
    ensures r.state.oneDayEggTriggered == (s.oneDayEggTriggered || OneDayEgg in r.effects)
    ensures r.state.isLastMinute <==> diff < MinuteMs
    ensures (EnterLastMinute in r.effects) <==> diff < MinuteMs && !s.isLastMinute
    ensures (ExitLastMinute in r.effects) <==> diff >= MinuteMs
    ensures r.state.oneMinuteEggTriggered == (s.oneMinuteEggTriggered || EnterLastMinute in r.effects)
  {
    var p := Decompose(diff);
    OneDayWindow(diff);
    LastMinuteWindow(diff);
    var a := OneDayStage(s, p);
    var b := FinalMinuteStage(a.state, p);
    CountAtMostOnce(a.effects, b.effects);
    Step(b.state, a.effects + b.effects)
  }

  /** A tick with `diff` milliseconds still to go (countdown.js:69-144):
      the two checks, then the render gate. */
  function Run(s: State, diff: int, page: Page, rule: PulseRule): (r: Step)
    requires diff > 0
    ensures r.state.timer == s.timer && NewYear !in r.effects && ShowArrived !in r.effects
    ensures (OneDayEgg in r.effects) <==> DayMs <= diff < DayMs + HourMs && !s.oneDayEggTriggered
    ensures Count(OneDayEgg, r.effects) == (if OneDayEgg in r.effects then 1 else 0)
    ensures r.state.oneDayEggTriggered == (s.oneDayEggTriggered || OneDayEgg in r.effects)
    ensures r.state.isLastMinute <==> diff < MinuteMs
    ensures (EnterLastMinute in r.effects) <==> diff < MinuteMs && !s.isLastMinute
    ensures (ExitLastMinute in r.effects) <==> diff >= MinuteMs
    ensures r.state.oneMinuteEggTriggered == (s.oneMinuteEggTriggered || EnterLastMinute in r.effects)
    ensures Describes(Parts(0, 0, 0, r.state.lastSeconds), diff % MinuteMs)
    ensures Paints(r.effects) <==> s.lastSeconds != Decompose(diff).seconds
    ensures forall q, pulse :: Render(q, pulse) in r.effects ==>
              q == Decompose(diff) && (rule == AsWritten ==> pulse == {})
              && (rule == Intended ==> pulse == Pulsed(s.shown, [q.days, q.hours, q.minutes, q.seconds]))
  {
    var b := Checks(s, diff);
    var c := RenderStage(b.state, Decompose(diff), page.hasDisplay, rule);
    SecondsOfMinute(diff);
    PaintsAppend(b.effects, c.effects);
    AppendPaintsOnly(b.effects, c.effects);
    CountAppendAbsent(OneDayEgg, b.effects, c.effects);
    Step(c.state, b.effects + c.effects)
  }

  /** Only the render stage can paint. */
  lemma PaintsAppend(xs: seq<Effect>, ys: seq<Effect>)
    requires forall e :: e in xs ==> !e.Render? && !e.MissingDisplay?
    ensures Paints(xs + ys) <==> Paints(ys)
  {
    if Paints(ys) {
      var i :| 0 <= i < |ys| && (ys[i].Render? || ys[i].MissingDisplay?);
      assert (xs + ys)[|xs| + i] == ys[i];
    }
    if Paints(xs + ys) {
      var i :| 0 <= i < |xs + ys| && ((xs + ys)[i].Render? || (xs + ys)[i].MissingDisplay?);
      assert i >= |xs|;
      assert ys[i - |xs|] == (xs + ys)[i];
    }
  }

  // ---------------------------------------------------------------------
  // stopCountdown, resetCountdown, startCountdown (countdown.js:150-177)

  /** stopCountdown: whatever the state, afterwards there is no interval;
      nothing else changes. */
  function Stop(s: State): (r: State)
    ensures r.timer == None
    ensures r.(timer := s.timer) == s
  {
    if s.timer.Some? then s.(timer := None) else s
  }

  /** Stopping twice is stopping once. */
  lemma StopIdempotent(s: State)
    ensures Stop(Stop(s)) == Stop(s)
  {
  }

  /** resetCountdown: forget the last rendered seconds value only; the
      threshold flags are untouched. */
  function Reset(s: State): (r: State)
    ensures r.lastSeconds < 0
    ensures r.(lastSeconds := s.lastSeconds) == s
  {
    s.(lastSeconds := -1)
  }

  /** After a reset the next running tick always repaints, because a
      seconds value is never negative. */
  lemma ResetForcesRender(s: State, now: int, target: int, page: Page)
    requires target - now > 0
    ensures Paints(Tick(Reset(s), now, target, page).effects)
  {
  }

  /** startCountdown as written (countdown.js:150-160): one immediate
      tick, then a 1-second interval is installed whatever that tick did. */
  function StartAsWritten(s: State, now: int, target: int, page: Page, handle: nat): (r: Step)
    ensures r.state.timer == Some(handle)
    ensures r.effects == Tick(s, now, target, page).effects
  {
    var t := Tick(s, now, target, page);
    Step(t.state.(timer := Some(handle)), t.effects)
  }

  /** startCountdown with the interval installed only when the immediate
      tick left the countdown running, so the terminal tick happens once. */
  function Start(s: State, now: int, target: int, page: Page, handle: nat): (r: Step)
    ensures r.state.timer == (if target - now > 0 then Some(handle) else None)
    ensures r.effects == Tick(s, now, target, page).effects
  {
    var t := Tick(s, now, target, page);
    if target - now > 0 then Step(t.state.(timer := Some(handle)), t.effects) else t
  }

  /** The interval driving the engine: one tick per entry of `nows` for as
      long as an interval is installed. */
  function RunTimer(s: State, target: int, nows: seq<int>, page: Page): Step
    decreases |nows|
  {
    if |nows| == 0 || s.timer.None? then Step(s, [])
    else
      var t := Tick(s, nows[0], target, page);
      var rest := RunTimer(t.state, target, nows[1..], page);
      Step(rest.state, t.effects + rest.effects)
  }

  /** Once the interval runs, the new-year callback fires at most once more:
      the tick that fires it also removes the interval. */
  lemma {:induction false} RunTimerNewYearOnce(s: State, target: int, nows: seq<int>, page: Page)
    ensures Count(NewYear, RunTimer(s, target, nows, page).effects) <= 1
    decreases |nows|
  {
    if |nows| > 0 && s.timer.Some? {
      var t := Tick(s, nows[0], target, page);
      var rest := RunTimer(t.state, target, nows[1..], page);
      assert RunTimer(s, target, nows, page).effects == t.effects + rest.effects;
      assert Count(NewYear, t.effects + rest.effects) == Count(NewYear, t.effects) + Count(NewYear, rest.effects);
      if target - nows[0] <= 0 {
        assert t.state.timer.None?;
        assert rest.effects == [];
        assert Count(NewYear, t.effects) <= 1 by {
          assert |t.effects| <= 2;
        }
      } else {
        assert NewYear !in t.effects;
        RunTimerNewYearOnce(t.state, target, nows[1..], page);
      }
    }
  }

  /** With `Start`, the new-year callback fires at most once per start,
      whatever times the later ticks see. */
  lemma NewYearOncePerStart(s: State, now: int, target: int, page: Page, handle: nat, nows: seq<int>)
    ensures var st := Start(s, now, target, page, handle);
            Count(NewYear, st.effects + RunTimer(st.state, target, nows, page).effects) <= 1
  {
    var st := Start(s, now, target, page, handle);
    if target - now <= 0 {
      assert RunTimer(st.state, target, nows, page).effects == [];
    } else {
      assert Count(NewYear, st.effects) == 0;
      RunTimerNewYearOnce(st.state, target, nows, page);
    }
  }

  /** As written, starting after the target fires the callback twice: once
      in the immediate tick and again when the interval it still installed
      ticks a second later. */
  lemma StartAsWrittenFiresTwice()
    ensures var page := Page(true, true);
            var st := StartAsWritten(Initial, 5000, 1000, page, 1);
            Count(NewYear, st.effects + RunTimer(st.state, 1000, [6000], page).effects) == 2
  {
    var page := Page(true, true);
    var st := StartAsWritten(Initial, 5000, 1000, page, 1);
    assert st.effects == [ShowArrived, NewYear];
    var t := Tick(st.state, 6000, 1000, page);
    assert t.effects == [ShowArrived, NewYear];
    assert RunTimer(t.state, 1000, [], page).effects == [];
    assert RunTimer(st.state, 1000, [6000], page).effects == [ShowArrived, NewYear];
  }

  // ---------------------------------------------------------------------
  // Threshold behaviour over many ticks

  /** The ticks a caller drives, one per entry of `nows`, interval or not. */
  function Ticks(s: State, target: int, nows: seq<int>, page: Page): Step
    decreases |nows|
  {
    if |nows| == 0 then Step(s, [])
    else
      var t := Tick(s, nows[0], target, page);
      var rest := Ticks(t.state, target, nows[1..], page);
      Step(rest.state, t.effects + rest.effects)
  }

  /** The one-day egg fires at most once over any sequence of ticks, even
      if time moves backward across the threshold, and never once its flag
      is set. */
  lemma {:induction false} OneDayEggAtMostOnce(s: State, target: int, nows: seq<int>, page: Page)
    ensures Count(OneDayEgg, Ticks(s, target, nows, page).effects) <= (if s.oneDayEggTriggered then 0 else 1)
    ensures Ticks(s, target, nows, page).state.oneDayEggTriggered
            == (s.oneDayEggTriggered || Count(OneDayEgg, Ticks(s, target, nows, page).effects) > 0)
    decreases |nows|
  {
    if |nows| > 0 {
      var t := Tick(s, nows[0], target, page);
      var rest := Ticks(t.state, target, nows[1..], page);
      assert Ticks(s, target, nows, page) == Step(rest.state, t.effects + rest.effects);
      assert Count(OneDayEgg, t.effects + rest.effects) == Count(OneDayEgg, t.effects) + Count(OneDayEgg, rest.effects);
      TickOneDayEggCount(s, nows[0], target, page);
      OneDayEggAtMostOnce(t.state, target, nows[1..], page);
    }
  }

  /** A single tick fires the one-day egg at most once. */
  lemma TickOneDayEggCount(s: State, now: int, target: int, page: Page)
    ensures Count(OneDayEgg, Tick(s, now, target, page).effects) == (if OneDayEgg in Tick(s, now, target, page).effects then 1 else 0)
  {
    if target - now <= 0 {
      CountAtMostOnce([], Tick(s, now, target, page).effects);
    }
  }

  /** An egg that can only come first occurs at most once. */
  lemma CountAtMostOnce(xs: seq<Effect>, ys: seq<Effect>)
    requires xs == [] || xs == [OneDayEgg]
    requires OneDayEgg !in ys
    ensures Count(OneDayEgg, xs + ys) == (if OneDayEgg in xs + ys then 1 else 0)
  {
    assert multiset(xs + ys) == multiset(xs) + multiset(ys);
  }

  /** Appending only paints leaves the other effects where they were. */
  lemma AppendPaintsOnly(xs: seq<Effect>, ys: seq<Effect>)
    requires forall e :: e in ys ==> e.Render? || e.MissingDisplay?
    ensures OneDayEgg in xs + ys <==> OneDayEgg in xs
    ensures EnterLastMinute in xs + ys <==> EnterLastMinute in xs
    ensures ExitLastMinute in xs + ys <==> ExitLastMinute in xs
    ensures NewYear in xs + ys <==> NewYear in xs
    ensures ShowArrived in xs + ys <==> ShowArrived in xs
  {
  }

  /** Appending effects that do not include `e` changes neither whether
      `e` occurs nor how often. */
  lemma CountAppendAbsent(e: Effect, xs: seq<Effect>, ys: seq<Effect>)
    requires e !in ys
    ensures Count(e, xs + ys) == Count(e, xs)
    ensures e in xs + ys <==> e in xs
  {
    assert multiset(xs + ys) == multiset(xs) + multiset(ys);
  }

  /** Repeated ticks inside the final minute run the enter effect only on
      the first of them. */
  lemma EnterOncePerVisit(s: State, now1: int, now2: int, target: int, page: Page)
    requires 0 < target - now1 < MinuteMs && 0 < target - now2 < MinuteMs
    ensures EnterLastMinute !in Tick(Tick(s, now1, target, page).state, now2, target, page).effects
  {
  }

  /** Ticks outside the final minute run the exit effect every time, even
      when the flag was already clear. */
  lemma ExitIsLevel(s: State, now1: int, now2: int, target: int, page: Page)
    requires target - now1 >= MinuteMs && target - now2 >= MinuteMs
    ensures var t1 := Tick(s, now1, target, page);
            && !t1.state.isLastMinute
            && ExitLastMinute in t1.effects
            && ExitLastMinute in Tick(t1.state, now2, target, page).effects
  {
  }

  // ---------------------------------------------------------------------
  // Changed-digit pulse (countdown.js:102-143)

  /** The positions whose painted value changes: the pulse the render step
      is meant to give each digit that differs from the previous paint. */
  function Pulsed(shown: seq<int>, values: seq<int>): (r: set<int>)
    ensures forall i :: i in r <==> 0 <= i < |shown| && i < |values| && shown[i] != values[i]
    ensures shown == [] ==> r == {}
  {
    set i | 0 <= i < |shown| && i < |values| && shown[i] != values[i]
  }

  /** The loop of countdown.js:109-143 as written: at step `i` the spans
      `querySelectorAll` finds are `appended`, and a position pulses when
      the span found at that index holds another value. */
  function PulseLoop(values: seq<int>, i: nat, appended: seq<int>): set<int>
    requires i <= |values|
    decreases |values| - i
  {
    if i == |values| then {}
    else
      var pulse := if i < |appended| && appended[i] != values[i] then {i} else {};
      pulse + PulseLoop(values, i + 1, appended + [values[i]])
  }

  /** The element was emptied at countdown.js:106 before the loop, so the
      spans found at step `i` are the `i` this loop appended itself, and
      the span at index `i` never exists yet. */
  lemma {:induction false} PulseLoopNeverPulses(values: seq<int>, i: nat, appended: seq<int>)
    requires i <= |values| && |appended| == i
    ensures PulseLoop(values, i, appended) == {}
    decreases |values| - i
  {
    if i < |values| {
      PulseLoopNeverPulses(values, i + 1, appended + [values[i]]);
    }
  }

  /** The pulse as written: no position ever pulses. */
  function PulsedAsWritten(values: seq<int>): (r: set<int>)
    ensures r == {}
  {
    PulseLoopNeverPulses(values, 0, []);
    PulseLoop(values, 0, [])
  }

  /** A repaint from 1 minute 30 seconds to 1 minute 29 seconds should pulse
      the seconds digit; as written nothing pulses. */
  lemma PulseIsDead()
    ensures Pulsed([0, 0, 1, 30], [0, 0, 1, 29]) == {3}
    ensures PulsedAsWritten([0, 0, 1, 29]) == {}
  {
    var p := Pulsed([0, 0, 1, 30], [0, 0, 1, 29]);
    assert 3 in p;
    forall i | i in p ensures i == 3 {
    }
  }

  /** With the intended pulse, a repaint pulses exactly the digits whose
      value differs from the previous paint, and nothing on the first
      paint. */
  lemma RenderPulsesChangedDigits(s: State, now: int, target: int, page: Page, q: Parts, pulse: set<int>)
    requires Render(q, pulse) in IntendedTick(s, now, target, page).effects
    ensures target - now > 0 && q == Decompose(target - now)
    ensures forall i :: i in pulse <==> 0 <= i < |s.shown| && i < 4 && s.shown[i] != [q.days, q.hours, q.minutes, q.seconds][i]
    ensures s.shown == [] ==> pulse == {}
  {
  }

  /** A repaint with its pulse dropped. */
  function Unpulsed(e: Effect): Effect {
    if e.Render? then Render(e.parts, {}) else e
  }

  /** Every effect of a list with its pulse dropped. */
  function Unpulse(effects: seq<Effect>): (r: seq<Effect>)
    ensures |r| == |effects|
  {
    if |effects| == 0 then [] else [Unpulsed(effects[0])] + Unpulse(effects[1..])
  }

  /** Dropping pulses is done element by element. */
  lemma {:induction false} UnpulseAppend(xs: seq<Effect>, ys: seq<Effect>)
    ensures Unpulse(xs + ys) == Unpulse(xs) + Unpulse(ys)
    decreases |xs|
  {
    if |xs| > 0 {
      assert (xs + ys)[1..] == xs[1..] + ys;
      UnpulseAppend(xs[1..], ys);
    } else {
      assert xs + ys == ys;
    }
  }

  /** The two pulse rules paint the same digits and leave the same state;
      only the pulse differs. */
  lemma RenderStageRules(s: State, p: Parts, hasDisplay: bool)
    ensures var w := RenderStage(s, p, hasDisplay, AsWritten);
            var i := RenderStage(s, p, hasDisplay, Intended);
            w == Step(i.state, Unpulse(i.effects))
  {
    var w := RenderStage(s, p, hasDisplay, AsWritten);
    var i := RenderStage(s, p, hasDisplay, Intended);
    assert Unpulse(i.effects) == w.effects;
  }

  /** A running tick under the two pulse rules differs only in the pulse. */
  lemma RunRules(s: State, diff: int, page: Page)
    requires diff > 0
    ensures var w := Run(s, diff, page, AsWritten);
            var i := Run(s, diff, page, Intended);
            w == Step(i.state, Unpulse(i.effects))
  {
    var b := Checks(s, diff);
    var p := Decompose(diff);
    RenderStageRules(b.state, p, page.hasDisplay);
    var cw := RenderStage(b.state, p, page.hasDisplay, AsWritten);
    var ci := RenderStage(b.state, p, page.hasDisplay, Intended);
    StepRules(b, cw, ci);
    assert Run(s, diff, page, Intended) == Step(ci.state, b.effects + ci.effects);
    assert Run(s, diff, page, AsWritten) == Step(cw.state, b.effects + cw.effects);
  }

  /** Putting effects without repaints in front of two render results that
      differ only in their pulse keeps that relation. */
  lemma StepRules(b: Step, cw: Step, ci: Step)
    requires cw == Step(ci.state, Unpulse(ci.effects))
    requires forall e :: e in b.effects ==> !e.Render?
    ensures Step(cw.state, b.effects + cw.effects) == Step(ci.state, Unpulse(b.effects + ci.effects))
  {
    UnpulseAppend(b.effects, ci.effects);
    UnpulseKeeps(b.effects);
  }

  /** A list without repaints has no pulse to drop. */
  lemma {:induction false} UnpulseKeeps(effects: seq<Effect>)
    requires forall e :: e in effects ==> !e.Render?
    ensures Unpulse(effects) == effects
    decreases |effects|
  {
    if |effects| > 0 {
      assert effects[0] in effects;
      assert forall e :: e in effects[1..] ==> e in effects;
      UnpulseKeeps(effects[1..]);
      assert effects == [effects[0]] + effects[1..];
    }
  }

  /** The tick as written is the intended tick with every pulse dropped:
      the dead pulse loop changes nothing else. */
  lemma IntendedTickAgrees(s: State, now: int, target: int, page: Page)
    ensures Tick(s, now, target, page) == Step(IntendedTick(s, now, target, page).state, Unpulse(IntendedTick(s, now, target, page).effects))
  {
    assert Tick(s, now, target, page) == TickWith(s, now, target, page, AsWritten);
    assert IntendedTick(s, now, target, page) == TickWith(s, now, target, page, Intended);
    if target - now <= 0 {
      ArrivedTicksAgree(s, now, target, page);
    } else {
      RunningTicksAgree(s, now, target, page);
    }
  }

  /** `IntendedTickAgrees` on the terminal branch. */
  lemma ArrivedTicksAgree(s: State, now: int, target: int, page: Page)
    requires target - now <= 0
    ensures var i := TickWith(s, now, target, page, Intended);
            TickWith(s, now, target, page, AsWritten) == Step(i.state, Unpulse(i.effects))
  {
    UnpulseKeeps(Arrive(s, page).effects);
  }

  /** `IntendedTickAgrees` on a running tick. */
  lemma RunningTicksAgree(s: State, now: int, target: int, page: Page)
    requires target - now > 0
    ensures var i := TickWith(s, now, target, page, Intended);
            TickWith(s, now, target, page, AsWritten) == Step(i.state, Unpulse(i.effects))
  {
    RunRules(s, target - now, page);
  }
}

=== FILE: danmaku.dfy ===
/**
  The comment stream ("danmaku") of `src/core/danmaku.js`.

  The container is the sequence of comments on screen, oldest first; a
  comment leaves it when its animation ends or when a newer one evicts it
  at capacity. Every call to `Math.random()` is a draw supplied by the
  caller; timer handles are supplied by the caller too.
 */
module Danmaku {
  import opened Js
  import Helpers
  import Storage

  /** The parts of `CONFIG` the stream reads (config.js:12-28). */
  datatype Config = Config(maxOnScreen: int, speed: real, interval: int, defaults: seq<string>)

  /** The comments the auto feed picks from (config.js:17-28). */
  const DefaultDanmaku: seq<string> := [
    "新年快乐！ovo", "恭喜发财！(✿◡‿◡)", "万事如意！OwO", "身体健康！(^_−)☆",
    "心想事成！(｡♥‿♥｡)", "阖家幸福！⊂((・▽・))⊃", "龙马精神！ovo",
    "岁岁平安！(´▽`ʃ♡ƪ)", "春节快乐！OwO", "吉祥如意！(✿◡‿◡)"]

  /** DEFAULT_CONFIG as far as the stream reads it. */
  const DefaultConfig: Config := Config(15, 15000.0, 2000, DefaultDanmaku)

  /** The six ordinary style classes. */
  const Styles: seq<string> := ["style-1", "style-2", "style-3", "style-4", "style-5", "style-6"]

  // ---------------------------------------------------------------------
  // The look of one comment (danmaku.js:100-139, danmakuPool.js:177-211)

  /** The draws one creation consumes, in the order the source makes them. */
  datatype Draws = Draws(style: real, top: real, speed: real, fontSize: real, rotate: real, rotation: real)

  predicate ValidDraws(d: Draws) {
    && Helpers.IsDraw(d.style) && Helpers.IsDraw(d.top) && Helpers.IsDraw(d.speed)
    && Helpers.IsDraw(d.fontSize) && Helpers.IsDraw(d.rotate) && Helpers.IsDraw(d.rotation)
  }

  /** The style class, the vertical position in percent, the font size in
      pixels, the tilt in degrees when there is one, and the animation
      duration in milliseconds. */
  datatype Look = Look(style: string, top: int, fontSize: int, rotation: Option<int>, duration: real)

  /** The special types that override the drawn style. */
  predicate IsSpecial(special: Option<string>) {
    special == Some("firework") || special == Some("rainbow") || special == Some("sparkle")
  }

  /** The style class: a special type overrides the drawn one. */
  function StyleFor(special: Option<string>, drawn: string): (style: string)
    ensures special == Some("firework") ==> style == "firework-style"
    ensures special == Some("rainbow") ==> style == "rainbow-style"
    ensures special == Some("sparkle") ==> style == "sparkle-style"
    ensures !IsSpecial(special) ==> style == drawn
  {
    if special == Some("firework") then "firework-style"
    else if special == Some("rainbow") then "rainbow-style"
    else if special == Some("sparkle") then "sparkle-style"
    else drawn
  }

  /** The look of a new comment: a style drawn from `styles` (an empty list
      yields `undefined`, which `classList.add` turns into the class
      "undefined"), a position in [minTop, maxTop], a size in [16, 24], a
      tilt in [-10, 10] for draws above 0.7, and a duration within 40% of
      `speed`. */
  function ChooseLook(styles: seq<string>, special: Option<string>, minTop: int, maxTop: int, speed: real, d: Draws): (l: Look)
    requires ValidDraws(d)
    ensures IsSpecial(special) ==> l.style == StyleFor(special, "")
    ensures !IsSpecial(special) && |styles| > 0 ==> l.style in styles
    ensures !IsSpecial(special) && |styles| == 0 ==> l.style == "undefined"
    ensures minTop <= maxTop ==> minTop <= l.top <= maxTop
    ensures 16 <= l.fontSize <= 24
    ensures l.rotation.Some? <==> d.rotate > 0.7
    ensures l.rotation.Some? ==> -10 <= l.rotation.value <= 10
    ensures speed >= 0.0 ==> 0.6 * speed <= l.duration <= 1.4 * speed
  {
    var drawn := match Helpers.RandomItem(d.style, styles)
                 case Some(s) => s
                 case None => "undefined";
    var top := Helpers.RandomInt(d.top, minTop, maxTop);
    var duration := speed * (0.6 + d.speed * 0.8);
    assert speed >= 0.0 ==> speed * (0.6 + d.speed * 0.8) <= speed * 1.4 by {
      if speed >= 0.0 {
        assert 0.6 + d.speed * 0.8 <= 1.4;
      }
    }
    var fontSize := Helpers.RandomInt(d.fontSize, 16, 24);
    var rotation := if d.rotate > 0.7 then Some(Helpers.RandomInt(d.rotation, -10, 10)) else None;
    Look(StyleFor(special, drawn), top, fontSize, rotation, duration)
  }

  /** Every look the contract of `ChooseLook` allows for an ordinary
      comment comes from some draws: any of the styles, any position and
      size in range, any tilt or none, and any duration in
      [0.6 speed, 1.4 speed). */
  lemma ChooseLookCovers(styles: seq<string>, special: Option<string>, minTop: int, maxTop: int, speed: real,
                         i: nat, top: int, fontSize: int, rotation: Option<int>, duration: real)
    requires !IsSpecial(special) && i < |styles|
    requires minTop <= top <= maxTop && 16 <= fontSize <= 24
    requires rotation.Some? ==> -10 <= rotation.value <= 10
    requires speed > 0.0 && 0.6 * speed <= duration < 1.4 * speed
    ensures var d := Draws((i as real) / (|styles| as real),
                           ((top - minTop) as real) / ((maxTop - minTop + 1) as real),
                           (duration - 0.6 * speed) / (0.8 * speed),
                           ((fontSize - 16) as real) / 9.0,
                           if rotation.Some? then 0.85 else 0.0,
                           if rotation.Some? then ((rotation.value + 10) as real) / 21.0 else 0.0);
            ValidDraws(d) && ChooseLook(styles, special, minTop, maxTop, speed, d) == Look(styles[i], top, fontSize, rotation, duration)
  {
    Helpers.RandomItemCovers(styles, i);
    Helpers.RandomIntCovers(minTop, maxTop, top);
    Helpers.RandomIntCovers(16, 24, fontSize);
    if rotation.Some? {
      Helpers.RandomIntCovers(-10, 10, rotation.value);
    }
    var x := (duration - 0.6 * speed) / (0.8 * speed);
    assert x * (0.8 * speed) == duration - 0.6 * speed;
    assert 0.0 <= x < 1.0;
    assert speed * (0.6 + x * 0.8) == duration;
  }

  // ---------------------------------------------------------------------
  // The container (danmaku.js:82-157)

  /** A comment on screen; `id` tells apart elements with equal text. */
  datatype Comment = Comment(id: nat, text: string, look: Look)

  /** The comment stream: the container's comments, oldest first, the next
      unused element id, the auto-feed handle, and the intervals the
      browser is running for the feed. */
  datatype Stream = Stream(children: seq<Comment>, nextId: nat, autoTimer: Option<nat>, liveTimers: set<nat>)

  /** The empty stream at page load. */
  const Empty: Stream := Stream([], 0, None, {})

  function TimerSet(handle: Option<nat>): set<nat> {
    if handle.Some? then {handle.value} else {}
  }

  /** Ids increase from oldest to newest and are all below `nextId`; the
      only interval running for the feed is the one the handle names. */
  predicate Valid(st: Stream) {
    && IdsIncreasing(st.children)
    && (forall i :: 0 <= i < |st.children| ==> st.children[i].id < st.nextId)
    && st.liveTimers <= TimerSet(st.autoTimer)
  }

  /** Ids increase from oldest to newest. */
  predicate IdsIncreasing(cs: seq<Comment>) {
    forall i, j :: 0 <= i < j < |cs| ==> cs[i].id < cs[j].id
  }

  /** Append with capacity: when `max` or more items are present the
      oldest is dropped first. This is the eviction rule of both copies of
      `createDanmaku` (danmaku.js:87-93, 141; script.js:330-336). */
  function Admit<T>(children: seq<T>, max: int, item: T): (r: seq<T>)
    ensures |r| > 0 && r[|r| - 1] == item
    ensures |children| >= max && |children| > 0 ==> r[..|r| - 1] == children[1..]
    ensures |children| < max || |children| == 0 ==> r[..|r| - 1] == children
    ensures 1 <= max && |children| <= max ==> |r| <= max
  {
    var kept := if |children| >= max && |children| > 0 then children[1..] else children;
    assert (kept + [item])[..|kept|] == kept;
    kept + [item]
  }

  /** createDanmaku(text, isAuto, specialType). Without a container it does
      nothing. Otherwise the oldest comment is evicted at capacity and the
      new one, with a fresh id, goes last; nothing else changes. */
  function CreateDanmaku(st: Stream, hasContainer: bool, text: string, special: Option<string>, d: Draws, cfg: Config): (r: Stream)
    requires ValidDraws(d)
    ensures !hasContainer ==> r == st
    ensures hasContainer ==>
              && r.nextId == st.nextId + 1
              && |r.children| > 0
              && r.children[|r.children| - 1] == Comment(st.nextId, text, ChooseLook(Styles, special, 15, 75, cfg.speed, d))
              && r.children[..|r.children| - 1] == (if |st.children| >= cfg.maxOnScreen && |st.children| > 0 then st.children[1..] else st.children)
              && r.autoTimer == st.autoTimer && r.liveTimers == st.liveTimers
    ensures 1 <= cfg.maxOnScreen && |st.children| <= cfg.maxOnScreen ==> |r.children| <= cfg.maxOnScreen
    ensures Valid(st) ==> Valid(r)
  {
    if !hasContainer then st
    else
      var c := Comment(st.nextId, text, ChooseLook(Styles, special, 15, 75, cfg.speed, d));
      var children := Admit(st.children, cfg.maxOnScreen, c);
      var r := st.(children := children, nextId := st.nextId + 1);
      assert Valid(st) ==> Valid(r) by {
        if Valid(st) {
          forall i | 0 <= i < |children| - 1 ensures children[i].id < st.nextId {
            assert children[i] in st.children;
          }
          forall i, j | 0 <= i < j < |children| ensures children[i].id < children[j].id {
            if j < |children| - 1 && |st.children| >= cfg.maxOnScreen && |st.children| > 0 {
              assert children[i] == st.children[i + 1] && children[j] == st.children[j + 1];
            } else if j < |children| - 1 {
              assert children[i] == st.children[i] && children[j] == st.children[j];
            } else {
              assert children[i] == children[..|children| - 1][i];
            }
          }
        }
      }
      r
  }

  /** At capacity the comment evicted is the oldest one on screen: its id
      is below that of every comment that stays. */
  lemma EvictsOldest(st: Stream, text: string, special: Option<string>, d: Draws, cfg: Config)
    requires ValidDraws(d) && Valid(st) && |st.children| > 0 && |st.children| >= cfg.maxOnScreen
    ensures var r := CreateDanmaku(st, true, text, special, d, cfg);
            && st.children[0] !in r.children
            && forall c :: c in r.children ==> st.children[0].id < c.id
  {
    var r := CreateDanmaku(st, true, text, special, d, cfg);
    forall c | c in r.children ensures st.children[0].id < c.id {
      var k :| 0 <= k < |r.children| && r.children[k] == c;
      if k < |r.children| - 1 {
        assert c == st.children[k + 1];
      }
    }
  }

  /** The comments without the one whose id is `id`, order kept
      (`danmaku.remove()` on the element the handler was attached to). */
  function RemoveById(cs: seq<Comment>, id: nat): (r: seq<Comment>)
    ensures forall c :: c in r <==> c in cs && c.id != id
    ensures |r| <= |cs|
  {
    if |cs| == 0 then []
    else
      var rest := RemoveById(cs[1..], id);
      assert forall c :: c in cs <==> c == cs[0] || c in cs[1..];
      if cs[0].id == id then rest else [cs[0]] + rest
  }

  /** Removing a comment keeps the ids increasing. */
  lemma {:induction false} RemoveByIdKeepsOrder(cs: seq<Comment>, id: nat)
    requires IdsIncreasing(cs)
    ensures IdsIncreasing(RemoveById(cs, id))
    decreases |cs|
  {
    if |cs| > 0 {
      TailIncreasing(cs);
      RemoveByIdKeepsOrder(cs[1..], id);
      if cs[0].id != id {
        ConsIncreasing(cs[0], RemoveById(cs[1..], id));
      }
    }
  }

  /** The tail of an increasing sequence is increasing, and its ids are
      above the head's. */
  lemma TailIncreasing(cs: seq<Comment>)
    requires IdsIncreasing(cs) && |cs| > 0
    ensures IdsIncreasing(cs[1..])
    ensures forall c :: c in cs[1..] ==> cs[0].id < c.id
  {
    var tail := cs[1..];
    forall i, j | 0 <= i < j < |tail| ensures tail[i].id < tail[j].id {
      assert tail[i] == cs[i + 1] && tail[j] == cs[j + 1];
    }
    forall c | c in tail ensures cs[0].id < c.id {
      var k :| 0 <= k < |tail| && tail[k] == c;
      assert c == cs[k + 1];
    }
  }

  /** A comment older than all of an increasing sequence can go in front. */
  lemma ConsIncreasing(x: Comment, rest: seq<Comment>)
    requires IdsIncreasing(rest) && forall c :: c in rest ==> x.id < c.id
    ensures IdsIncreasing([x] + rest)
  {
    var r := [x] + rest;
    forall i, j | 0 <= i < j < |r| ensures r[i].id < r[j].id {
      assert r[j] == rest[j - 1];
      if i > 0 {
        assert r[i] == rest[i - 1];
      }
    }
  }

  /** The `animationend` handler of comment `id`: that element leaves the
      container; every other comment stays, in order. */
  function OnAnimationEnd(st: Stream, id: nat): (r: Stream)
    ensures forall c :: c in r.children <==> c in st.children && c.id != id
    ensures r.nextId == st.nextId && r.autoTimer == st.autoTimer && r.liveTimers == st.liveTimers
    ensures Valid(st) ==> Valid(r)
  {
    var r := st.(children := RemoveById(st.children, id));
    assert Valid(st) ==> Valid(r) by {
      if Valid(st) {
        RemoveByIdKeepsOrder(st.children, id);
      }
    }
    r
  }

  /** Below capacity, a comment whose animation ends leaves the container
      exactly as it was before the comment was created. */
  lemma AnimationEndUndoesCreate(st: Stream, text: string, special: Option<string>, d: Draws, cfg: Config)
    requires ValidDraws(d) && Valid(st) && |st.children| < cfg.maxOnScreen
    ensures OnAnimationEnd(CreateDanmaku(st, true, text, special, d, cfg), st.nextId).children == st.children
  {
    var r := CreateDanmaku(st, true, text, special, d, cfg);
    assert r.children == st.children + [r.children[|r.children| - 1]];
    RemoveByIdAppend(st.children, r.children[|r.children| - 1], st.nextId);
    RemoveByIdAbsent(st.children, st.nextId);
  }

  lemma {:induction false} RemoveByIdAppend(cs: seq<Comment>, c: Comment, id: nat)
    requires c.id == id
    ensures RemoveById(cs + [c], id) == RemoveById(cs, id)
    decreases |cs|
  {
    if |cs| == 0 {
      assert RemoveById([c], id) == RemoveById([], id);
    } else {
      assert (cs + [c])[1..] == cs[1..] + [c];
      RemoveByIdAppend(cs[1..], c, id);
    }
  }

  lemma {:induction false} RemoveByIdAbsent(cs: seq<Comment>, id: nat)
    requires forall i :: 0 <= i < |cs| ==> cs[i].id < id
    ensures RemoveById(cs, id) == cs
    decreases |cs|
  {
    if |cs| > 0 {
      RemoveByIdAbsent(cs[1..], id);
      assert [cs[0]] + cs[1..] == cs;
    }
  }

  // ---------------------------------------------------------------------
  // sendDanmaku (danmaku.js:25-57 and 163-185)

  /** sendDanmaku without history (danmaku.js:163-185): nothing for empty
      or whitespace-only text, otherwise a comment with the trimmed text. */
  function SendDanmaku(st: Stream, hasContainer: bool, text: string, d: Draws, cfg: Config): (r: Stream)
    requires ValidDraws(d)
    ensures Blank(text) ==> r == st
    ensures !Blank(text) && hasContainer ==>
              |r.children| > 0 && r.children[|r.children| - 1].text == Trim(text) && r.children[|r.children| - 1].text != []
    ensures !Blank(text) ==> r == CreateDanmaku(st, hasContainer, Trim(text), None, d, cfg)
  {
    if Trim(text) == [] then st else CreateDanmaku(st, hasContainer, Trim(text), None, d, cfg)
  }

  /** The result of the recording variant: the stream, the store, and
      whether a storage call threw (the exception leaves the handler). */
  datatype Sent = Sent(stream: Stream, store: Storage.Store, threw: bool)

  /** sendDanmaku with history (danmaku.js:25-57): the comment is created,
      the trimmed text is added to the history as "user", and it is added to
      the user presets unless it is one of the default comments. */
  function SendDanmakuRecorded(st: Stream, store: Storage.Store, hasContainer: bool, text: string, now: int, d: Draws, cfg: Config): (r: Sent)
    requires ValidDraws(d)
    ensures Blank(text) ==> r == Sent(st, store, false)
    ensures !Blank(text) ==> r.stream == CreateDanmaku(st, hasContainer, Trim(text), None, d, cfg)
    ensures !Blank(text) && Storage.GetHistory(store).JArr? && store.writable ==>
              var h := Storage.GetHistory(r.store);
              h.JArr? && |h.items| > 0 && h.items[0] == Storage.HistoryEntry(Trim(text), "user", now)
    ensures !Blank(text) && Trim(text) in cfg.defaults ==>
              Storage.GetUserDanmaku(r.store) == Storage.GetUserDanmaku(store)
    ensures !Blank(text) && Trim(text) !in cfg.defaults && !r.threw && store.writable
              && Storage.GetUserDanmaku(store).JArr? ==>
              var u := Storage.GetUserDanmaku(r.store);
              u.JArr? && Storage.JStr(Trim(text)) in u.items
    ensures r.threw ==> !Storage.GetHistory(store).JArr? || !Storage.GetUserDanmaku(store).JArr?
  {
    var t := Trim(text);
    if t == [] then Sent(st, store, false)
    else
      var stream := CreateDanmaku(st, hasContainer, t, None, d, cfg);
      var (h, threw) := RecordHistory(store, t, now);
      if threw then Sent(stream, h, true)
      else if t in cfg.defaults then Sent(stream, h, false)
      else
        var (u, threw') := RecordPreset(h, t);
        Sent(stream, u, threw')
  }

  /** The history step of the recording variant: addHistory(text, "user").
      It touches nothing but the history. */
  function RecordHistory(store: Storage.Store, t: string, now: int): (r: (Storage.Store, bool))
    ensures r.1 <==> !Storage.GetHistory(store).JArr?
    ensures r.1 ==> r.0 == store
    ensures r.0.writable == store.writable
    ensures Storage.GetUserDanmaku(r.0) == Storage.GetUserDanmaku(store)
    ensures !r.1 && store.writable ==>
              var h := Storage.GetHistory(r.0);
              h.JArr? && |h.items| > 0 && h.items[0] == Storage.HistoryEntry(t, "user", now)
  {
    match Storage.AddHistory(store, t, "user", now)
    case Threw => (store, true)
    case Returned(w) =>
      Storage.ReadsOutside(w.store, store, Storage.HistoryKey, Storage.UserDanmakuKey, Storage.JArr([]));
      (w.store, false)
  }

  /** The preset step of the recording variant: addUserDanmaku(text). Once
      it returns, the text is among the presets of a writable store. */
  function RecordPreset(store: Storage.Store, t: string): (r: (Storage.Store, bool))
    ensures r.1 ==> !Storage.GetUserDanmaku(store).JArr?
    ensures Storage.GetHistory(r.0) == Storage.GetHistory(store)
    ensures !r.1 && store.writable && Storage.GetUserDanmaku(store).JArr? ==>
              var u := Storage.GetUserDanmaku(r.0);
              u.JArr? && Storage.JStr(t) in u.items
  {
    match Storage.AddUserDanmaku(store, t)
    case Threw => (store, true)
    case Returned(w) =>
      Storage.ReadsOutside(w.store, store, Storage.UserDanmakuKey, Storage.HistoryKey, Storage.JArr([]));
      assert store.writable && Storage.GetUserDanmaku(store).JArr?
             && Storage.JStr(t) !in Storage.GetUserDanmaku(store).items ==>
               Storage.GetUserDanmaku(w.store).items[0] == Storage.JStr(t);
      (w.store, false)
  }

  // ---------------------------------------------------------------------
  // Auto feed and cleanup (danmaku.js:190-218, 305-319)

  /** startAutoDanmaku with the handle `setInterval` returns: the old
      interval is cleared before the new one is installed. */
  function StartAutoDanmaku(st: Stream, handle: nat): (r: Stream)
    ensures r.autoTimer == Some(handle)
    ensures r.liveTimers == st.liveTimers - TimerSet(st.autoTimer) + {handle}
    ensures r.children == st.children && r.nextId == st.nextId
    ensures Valid(st) ==> Valid(r) && r.liveTimers == {handle}
  {
    var live := st.liveTimers - TimerSet(st.autoTimer) + {handle};
    st.(autoTimer := Some(handle), liveTimers := live)
  }

  /** stopAutoDanmaku: the feed's interval is cleared and the handle is
      null. */
  function StopAutoDanmaku(st: Stream): (r: Stream)
    ensures r.autoTimer == None
    ensures r.liveTimers == st.liveTimers - TimerSet(st.autoTimer)
    ensures r.children == st.children && r.nextId == st.nextId
    ensures Valid(st) ==> Valid(r) && r.liveTimers == {}
  {
    st.(autoTimer := None, liveTimers := st.liveTimers - TimerSet(st.autoTimer))
  }

  /** Starting the feed any number of times leaves one interval running,
      and stopping it leaves none. */
  lemma {:induction false} AutoFeedSingleInterval(st: Stream, handles: seq<nat>)
    requires Valid(st) && |handles| > 0
    ensures var r := StartAll(st, handles);
            Valid(r) && r.liveTimers == {handles[|handles| - 1]} && StopAutoDanmaku(r).liveTimers == {}
    decreases |handles|
  {
    if |handles| > 1 {
      AutoFeedSingleInterval(StartAutoDanmaku(st, handles[0]), handles[1..]);
    }
  }

  /** Calling startAutoDanmaku with each handle in turn. */
  function StartAll(st: Stream, handles: seq<nat>): Stream
    decreases |handles|
  {
    if |handles| == 0 then st else StartAll(StartAutoDanmaku(st, handles[0]), handles[1..])
  }

  /** One firing of the feed's interval: a comment picked from the default
      list by the draw `pick`. Reading an empty list gives `undefined`,
      which becomes empty text. */
  function AutoFeedTick(st: Stream, hasContainer: bool, pick: real, d: Draws, cfg: Config): (r: Stream)
    requires Helpers.IsDraw(pick) && ValidDraws(d)
    ensures hasContainer && |cfg.defaults| > 0 ==>
              |r.children| > 0 && r.children[|r.children| - 1].text in cfg.defaults
    ensures !hasContainer ==> r == st
    ensures Valid(st) ==> Valid(r)
  {
    var text := match Helpers.RandomItem(pick, cfg.defaults)
                case Some(t) => t
                case None => "";
    CreateDanmaku(st, hasContainer, text, None, d, cfg)
  }

  /** cleanupDanmaku: the feed stops and the container is emptied. */
  function CleanupDanmaku(st: Stream, hasContainer: bool): (r: Stream)
    ensures r.autoTimer == None
    ensures hasContainer ==> r.children == []
    ensures !hasContainer ==> r.children == st.children
    ensures Valid(st) ==> Valid(r) && r.liveTimers == {}
  {
    var stopped := StopAutoDanmaku(st);
    if hasContainer then stopped.(children := []) else stopped
  }

  // ---------------------------------------------------------------------
  // The title egg (danmaku.js:273-299; script.js:950-972)

  /** One click on the title: the counter goes up, and at five the egg
      fires and the counter restarts. */
  function TitleClick(count: nat): (r: (nat, bool))
    ensures r.1 <==> count + 1 >= 5
    ensures r.1 ==> r.0 == 0
    ensures !r.1 ==> r.0 == count + 1
  {
    if count + 1 >= 5 then (0, true) else (count + 1, false)
  }

  /** `n` clicks from a counter of `count`: the counter and the eggs fired. */
  function Clicks(count: nat, n: nat): (nat, nat)
    decreases n
  {
    if n == 0 then (count, 0)
    else
      var (c, egg) := TitleClick(count);
      var (c', eggs) := Clicks(c, n - 1);
      (c', eggs + (if egg then 1 else 0))
  }

  /** From a counter below five, every fifth click fires the egg. */
  lemma {:induction false} ClicksFireEveryFifth(count: nat, n: nat)
    requires count < 5
    ensures Clicks(count, n) == ((count + n) % 5, (count + n) / 5)
    decreases n
  {
    if n > 0 {
      var (c, egg) := TitleClick(count);
      ClicksFireEveryFifth(c, n - 1);
      if egg {
        assert count == 4;
        assert (count + n) % 5 == (n - 1) % 5 && (count + n) / 5 == (n - 1) / 5 + 1;
      } else {
        assert c == count + 1;
      }
    }
  }
}

=== FILE: danmaku_pool.dfy ===
/**
  The element pool of `src/utils/danmakuPool.js`: a free list of
  comment elements that can be reused, and a count of the elements the pool
  has made, bounded by `maxSize`. The document numbers the elements it
  creates in order; `nextElement` is the number the next
  `document.createElement` gets.
 */
module DanmakuPool {
  import opened Js
  import Danmaku

  datatype Pool = Pool(free: seq<nat>, maxSize: int, size: int, nextElement: nat)

  /** What getStatus reports. */
  datatype Status = Status(available: int, total: int)

  /** The elements numbered `lo`, `lo + 1`, … , `lo + n - 1`. */
  function Fresh(lo: nat, n: nat): (r: seq<nat>)
    ensures |r| == n
    ensures forall i :: 0 <= i < n ==> r[i] == lo + i
    decreases n
  {
    if n == 0 then [] else Fresh(lo, n - 1) + [lo + n - 1]
  }

  /** new DanmakuPool(initialSize, maxSize) in a document whose next
      element is numbered `first`: `initialSize` elements made in advance
      (none for a negative size, though `size` is set all the same). */
  function NewPool(first: nat, initialSize: int, maxSize: int): (p: Pool)
    ensures p.maxSize == maxSize && p.size == initialSize
    ensures |p.free| == (if initialSize > 0 then initialSize else 0)
    ensures forall i, j :: 0 <= i < j < |p.free| ==> p.free[i] != p.free[j]
    ensures forall e :: e in p.free ==> first <= e < p.nextElement
    ensures p.nextElement == first + |p.free|
    ensures initialSize >= 0 ==> GetStatus(p) == Status(initialSize, initialSize)
  {
    var n := if initialSize > 0 then initialSize else 0;
    Pool(Fresh(first, n), maxSize, initialSize, first + n)
  }

  /** getStatus: the free elements and the elements made. */
  function GetStatus(p: Pool): (s: Status)
    ensures s.available == |p.free| && s.total == p.size
  {
    Status(|p.free|, p.size)
  }

  /** The bounds the pool keeps: never more free elements than `maxSize`,
      and never more elements made than `maxSize`. */
  predicate Bounded(p: Pool) {
    |p.free| <= p.maxSize && p.size <= p.maxSize
  }

  /** A pool built with 0 <= initialSize <= maxSize starts within bounds. */
  lemma NewPoolBounded(first: nat, initialSize: int, maxSize: int)
    requires 0 <= initialSize <= maxSize
    ensures Bounded(NewPool(first, initialSize, maxSize))
  {
  }

  /** The result of acquire: the pool afterwards, the element handed out,
      and whether it is a temporary one the pool did not count. */
  datatype Acquired = Acquired(pool: Pool, element: nat, temporary: bool)

  /** acquire: reuse the most recently freed element; otherwise make a new
      one, counted while fewer than `maxSize` exist and temporary after. */
  function Acquire(p: Pool): (r: Acquired)
    ensures |p.free| > 0 ==>
              && r.element == p.free[|p.free| - 1] && !r.temporary
              && GetStatus(r.pool) == Status(|p.free| - 1, p.size)
              && r.pool.free + [r.element] == p.free
    ensures |p.free| == 0 ==> r.pool.free == [] && r.element == p.nextElement && r.element !in p.free
    ensures |p.free| == 0 && p.size < p.maxSize ==> !r.temporary && r.pool.size == p.size + 1
    ensures |p.free| == 0 && p.size >= p.maxSize ==> r.temporary && r.pool.size == p.size
    ensures r.pool.maxSize == p.maxSize
    ensures r.pool.nextElement == if |p.free| > 0 then p.nextElement else p.nextElement + 1
    ensures Bounded(p) ==> Bounded(r.pool)
  {
    if |p.free| > 0 then
      var e := p.free[|p.free| - 1];
      assert p.free[..|p.free| - 1] + [e] == p.free;
      Acquired(p.(free := p.free[..|p.free| - 1]), e, false)
    else if p.size < p.maxSize then
      Acquired(p.(size := p.size + 1, nextElement := p.nextElement + 1), p.nextElement, false)
    else
      Acquired(p.(nextElement := p.nextElement + 1), p.nextElement, true)
  }

  /** release: the element joins the free list (true) while there is room
      below `maxSize`; otherwise it is dropped (false) and the pool stays
      as it was. Where the element came from is not checked. */
  function Release(p: Pool, element: nat): (r: (Pool, bool))
    ensures r.1 <==> |p.free| < p.maxSize
    ensures r.1 ==> r.0.free == p.free + [element] && r.0.size == p.size
    ensures r.1 ==> GetStatus(r.0) == Status(|p.free| + 1, p.size)
    ensures !r.1 ==> r.0 == p
    ensures Bounded(p) ==> Bounded(r.0)
  {
    if |p.free| < p.maxSize then (p.(free := p.free + [element]), true) else (p, false)
  }

  /** Releasing the element just acquired from the free list restores the
      pool exactly. */
  lemma AcquireReleaseRoundTrip(p: Pool)
    requires |p.free| > 0 && Bounded(p)
    ensures var a := Acquire(p);
            Release(a.pool, a.element) == (p, true)
  {
  }

  /** clear: no free elements and none counted. */
  function Clear(p: Pool): (r: Pool)
    ensures GetStatus(r) == Status(0, 0)
    ensures r.maxSize == p.maxSize && r.nextElement == p.nextElement
    ensures p.maxSize >= 0 ==> Bounded(r)
  {
    p.(free := [], size := 0)
  }

  /** Nothing ties free elements to counted ones: an element acquired
      before `clear` and released after it leaves one element available in
      a pool that counts none. */
  lemma AvailableMayExceedTotal()
    ensures var a := Acquire(NewPool(0, 1, 1));
            var (p, ok) := Release(Clear(a.pool), a.element);
            ok && GetStatus(p).available > GetStatus(p).total
  {
  }

  /** A temporary element is adopted by release like any other. */
  lemma TemporaryIsAdopted()
    ensures var a1 := Acquire(NewPool(0, 0, 1));
            var a2 := Acquire(a1.pool);
            var (p, ok) := Release(a2.pool, a2.element);
            a2.temporary && ok && a2.element in p.free
  {
  }

  // ---------------------------------------------------------------------
  // The global instance (danmakuPool.js:134-154, 231-236)

  /** initDanmakuPool: the first call makes the pool, numbering its
      elements from `first`; later calls return the existing one and
      ignore their arguments. */
  function InitDanmakuPool(global: Option<Pool>, first: nat, initialSize: int, maxSize: int): (r: (Option<Pool>, Pool))
    ensures r.0 == Some(r.1)
    ensures global.Some? ==> r.1 == global.value
    ensures global.None? ==> r.1 == NewPool(first, initialSize, maxSize)
  {
    match global
    case Some(p) => (global, p)
    case None => var p := NewPool(first, initialSize, maxSize); (Some(p), p)
  }

  /** A second initialisation returns the instance of the first. */
  lemma InitIdempotent(global: Option<Pool>, f1: nat, i1: int, m1: int, f2: nat, i2: int, m2: int)
    ensures var (g1, p1) := InitDanmakuPool(global, f1, i1, m1);
            InitDanmakuPool(g1, f2, i2, m2) == (g1, p1)
  {
  }

  /** cleanupDanmakuPool: the instance is cleared and dropped. */
  function CleanupDanmakuPool(global: Option<Pool>): (r: Option<Pool>)
    ensures r == None
  {
    None
  }

  /** After cleanup the next initialisation makes a fresh pool with the
      arguments it is given. */
  lemma CleanupThenInit(global: Option<Pool>, first: nat, initialSize: int, maxSize: int)
    ensures InitDanmakuPool(CleanupDanmakuPool(global), first, initialSize, maxSize).1 == NewPool(first, initialSize, maxSize)
  {
  }

  // ---------------------------------------------------------------------
  // createPooledDanmaku and its animationend handler (danmakuPool.js:167-226)

  /** The `x` copies of one element. */
  function Copies(e: nat, n: nat): (r: seq<nat>)
    ensures |r| == n
    ensures forall i :: 0 <= i < n ==> r[i] == e
    decreases n
  {
    if n == 0 then [] else Copies(e, n - 1) + [e]
  }


  /** No element occurs twice. */
  predicate Distinct(xs: seq<nat>) {
    forall i, j :: 0 <= i < j < |xs| ==> xs[i] != xs[j]
  }

  /** What the pooled comments live in: the global pool, the container's
      elements, how many `animationend` handlers each element carries, the
      elements whose `animationName` is the tilted animation, and the
      document's next element number.

      `resetElement` replaces the element by a clone only when it still has
      a parent, and the handler removes it from the container before it is
      released, so a handler is never dropped. It clears the tilt class and
      `--rotation` but not `animationName`. */
  datatype Scene = Scene(global: Option<Pool>, container: seq<nat>, listeners: map<nat, nat>, rotated: set<nat>, next: nat)

  /** The page before any comment: no pool and an empty container. */
  const EmptyScene: Scene := Scene(None, [], map[], {}, 0)

  /** Every element the scene mentions was made by the document, and the
      pool's count of made elements is the document's. */
  predicate Numbered(sc: Scene) {
    && (forall e :: e in sc.container ==> e < sc.next)
    && (forall e :: e in sc.listeners ==> e < sc.next)
    && (forall e :: e in sc.rotated ==> e < sc.next)
    && (sc.global.Some? ==> sc.global.value.nextElement == sc.next && forall e :: e in sc.global.value.free ==> e < sc.next)
  }

  /** The number of handlers an element carries. */
  function Listeners(sc: Scene, e: nat): nat {
    if e in sc.listeners then sc.listeners[e] else 0
  }

  /** initDanmakuPool on the page: a new pool's elements are the next ones
      the document makes, so none of them is already on the page. */
  function SceneInit(sc: Scene, initialSize: int, maxSize: int): (r: Scene)
    ensures r.global.Some?
    ensures sc.global.Some? ==> r == sc
    ensures sc.global.None? ==> r.global == Some(NewPool(sc.next, initialSize, maxSize))
    ensures sc.global.None? ==> r.next == sc.next + |r.global.value.free|
    ensures r.container == sc.container && r.listeners == sc.listeners && r.rotated == sc.rotated
    ensures Numbered(sc) ==> Numbered(r)
    ensures sc.global.None? && Numbered(sc) ==>
              forall e :: e in r.global.value.free ==> e !in sc.container && Listeners(sc, e) == 0 && e !in sc.rotated
  {
    var (g, p) := InitDanmakuPool(sc.global, sc.next, initialSize, maxSize);
    sc.(global := g, next := if sc.global.None? then p.nextElement else sc.next)
  }

  /** The container without every element of `xs`. */
  function DetachAll(container: seq<nat>, xs: seq<nat>): (r: seq<nat>)
    ensures forall x :: x in r <==> x in container && x !in xs
    ensures Distinct(container) ==> Distinct(r)
    decreases |xs|
  {
    if |xs| == 0 then container
    else
      assert forall x :: x in xs <==> x == xs[0] || x in xs[1..];
      DetachAll(Detach(container, xs[0]), xs[1..])
  }

  /** cleanupDanmakuPool on the page: `clear` removes every free element
      from the document, and the instance is dropped. */
  function SceneCleanup(sc: Scene): (r: Scene)
    ensures r.global == None
    ensures forall x :: x in r.container <==> x in sc.container && (sc.global.None? || x !in sc.global.value.free)
    ensures Distinct(sc.container) ==> Distinct(r.container)
    ensures r.listeners == sc.listeners && r.rotated == sc.rotated && r.next == sc.next
    ensures Numbered(sc) ==> Numbered(r)
  {
    var container := match sc.global
                     case None => sc.container
                     case Some(p) => DetachAll(sc.container, p.free);
    sc.(global := None, container := container)
  }

  /** A comment placed through the pool: the scene afterwards, the
      element, its text, its look, and whether the element runs the tilted
      animation. */
  datatype Placed = Placed(scene: Scene, element: nat, text: string, look: Danmaku.Look, rotatedAnimation: bool)

  /** createPooledDanmaku: take an element from the pool when there is one
      (else a new element of the document), give it the text and a look,
      append it (which moves it to the end if it is already on screen), and
      attach one more handler to it. A tilt sets the tilted animation,
      which stays on the element after it is reset. The pool makes its new
      elements with the document's numbering; on a numbered scene the pool
      already counts as the document does. */
  function CreatePooledDanmaku(sc: Scene, text: string, styles: seq<string>, speed: real,
                               maxTop: int, minTop: int, special: Option<string>, d: Danmaku.Draws): (r: Placed)
    requires Danmaku.ValidDraws(d)
    ensures sc.global.Some? ==> var a := Acquire(sc.global.value.(nextElement := sc.next));
              r.scene.global == Some(a.pool) && r.element == a.element && r.scene.next == a.pool.nextElement
    ensures sc.global.None? ==> r.scene.global == None && r.element == sc.next && r.scene.next == sc.next + 1
    // the container: the element goes last, and appears once
    ensures |r.scene.container| > 0 && r.scene.container[|r.scene.container| - 1] == r.element
    ensures forall x :: x in r.scene.container <==> x in sc.container || x == r.element
    ensures r.element !in sc.container ==> r.scene.container == sc.container + [r.element]
    ensures Distinct(sc.container) ==> Distinct(r.scene.container)
    ensures Numbered(sc) ==> Numbered(r.scene)
    ensures Numbered(sc) && r.element == sc.next ==> r.element !in sc.container && Listeners(sc, r.element) == 0
    // handlers
    ensures Listeners(r.scene, r.element) == Listeners(sc, r.element) + 1
    ensures forall x: nat :: x != r.element ==> Listeners(r.scene, x) == Listeners(sc, x)
    // text and look
    ensures r.text == text
    ensures r.rotatedAnimation <==> r.look.rotation.Some? || r.element in sc.rotated
    ensures Danmaku.IsSpecial(special) ==> r.look.style == Danmaku.StyleFor(special, "")
    ensures !Danmaku.IsSpecial(special) && |styles| > 0 ==> r.look.style in styles
    ensures minTop <= maxTop ==> minTop <= r.look.top <= maxTop
    ensures 16 <= r.look.fontSize <= 24
    ensures r.look.rotation.Some? ==> -10 <= r.look.rotation.value <= 10
  {
    var look := Danmaku.ChooseLook(styles, special, minTop, maxTop, speed, d);
    var (scene, e) := PlaceElement(sc, look.rotation.Some?);
    Placed(scene, e, text, look, look.rotation.Some? || e in sc.rotated)
  }

  /** The page side of a placement: take an element, append it, attach a
      handler, and mark it tilted when `tilted`. */
  function PlaceElement(sc: Scene, tilted: bool): (r: (Scene, nat))
    ensures sc.global.Some? ==> var a := Acquire(sc.global.value.(nextElement := sc.next));
              r.0.global == Some(a.pool) && r.1 == a.element && r.0.next == a.pool.nextElement
    ensures sc.global.None? ==> r.0.global == None && r.1 == sc.next && r.0.next == sc.next + 1
    ensures |r.0.container| > 0 && r.0.container[|r.0.container| - 1] == r.1
    ensures forall x :: x in r.0.container <==> x in sc.container || x == r.1
    ensures r.1 !in sc.container ==> r.0.container == sc.container + [r.1]
    ensures Distinct(sc.container) ==> Distinct(r.0.container)
    ensures Numbered(sc) ==> Numbered(r.0)
    ensures Numbered(sc) && r.1 == sc.next ==> r.1 !in sc.container && Listeners(sc, r.1) == 0
    ensures Listeners(r.0, r.1) == Listeners(sc, r.1) + 1
    ensures forall x: nat :: x != r.1 ==> Listeners(r.0, x) == Listeners(sc, x)
    ensures r.0.rotated == if tilted then sc.rotated + {r.1} else sc.rotated
  {
    var (g, e, next) := TakeElement(sc);
    (Scene(g, MoveToEnd(sc.container, e), sc.listeners[e := Listeners(sc, e) + 1],
           if tilted then sc.rotated + {e} else sc.rotated, next), e)
  }

  /** The element a new comment gets, with the pool and the document's
      counter afterwards: the pool's when there is one, else a new one. */
  function TakeElement(sc: Scene): (r: (Option<Pool>, nat, nat))
    ensures sc.global.Some? ==> var a := Acquire(sc.global.value.(nextElement := sc.next));
              r == (Some(a.pool), a.element, a.pool.nextElement)
    ensures sc.global.None? ==> r == (None, sc.next, sc.next + 1)
    ensures r.0.Some? <==> sc.global.Some?
    ensures sc.next <= r.2
    ensures Numbered(sc) ==> r.1 < r.2
    ensures r.1 == sc.next || (sc.global.Some? && r.1 in sc.global.value.free)
    ensures r.0.Some? ==> r.0.value.nextElement == r.2 && forall x :: x in r.0.value.free ==> x in sc.global.value.free
  {
    match sc.global
    case Some(p) =>
      var a := Acquire(p.(nextElement := sc.next));
      assert |p.free| > 0 ==> p.free[|p.free| - 1] in p.free;
      assert forall x :: x in a.pool.free ==> x in p.free;
      (Some(a.pool), a.element, a.pool.nextElement)
    case None => (None, sc.next, sc.next + 1)
  }

  /** appendChild: the element goes last, and leaves its old place if it
      was already there. */
  function MoveToEnd(container: seq<nat>, e: nat): (r: seq<nat>)
    ensures |r| > 0 && r[|r| - 1] == e
    ensures forall x :: x in r <==> x in container || x == e
    ensures e !in container ==> r == container + [e]
    ensures Distinct(container) ==> Distinct(r)
  {
    Detach(container, e) + [e]
  }

  /** The element without every occurrence in the container. */
  function Detach(container: seq<nat>, element: nat): (r: seq<nat>)
    ensures forall x :: x in r <==> x in container && x != element
    ensures element !in container ==> r == container
    ensures Distinct(container) ==> Distinct(r)
    ensures |r| <= |container|
  {
    if |container| == 0 then []
    else
      var tail := container[1..];
      assert Distinct(container) ==> Distinct(tail) && container[0] !in tail by {
        if Distinct(container) {
          forall i, j | 0 <= i < j < |tail| ensures tail[i] != tail[j] {
            assert tail[i] == container[i + 1] && tail[j] == container[j + 1];
          }
          forall k | 0 <= k < |tail| ensures tail[k] != container[0] {
            assert tail[k] == container[k + 1];
          }
        }
      }
      var rest := Detach(tail, element);
      assert forall x :: x in container <==> x == container[0] || x in tail;
      assert container == [container[0]] + tail;
      if container[0] == element then rest
      else
        var r := [container[0]] + rest;
        assert Distinct(container) ==> Distinct(r) by {
          if Distinct(container) {
            forall i, j | 0 <= i < j < |r| ensures r[i] != r[j] {
              if i == 0 {
                assert r[j] == rest[j - 1] && rest[j - 1] in rest;
              } else {
                assert r[i] == rest[i - 1] && r[j] == rest[j - 1];
              }
            }
          }
        }
        r
  }

  /** `n` releases of the same element, one per handler. Each that finds
      room puts the element into the free list once more. */
  function ReleaseTimes(p: Pool, element: nat, n: nat): (r: Pool)
    ensures r.maxSize == p.maxSize && r.size == p.size && r.nextElement == p.nextElement
    ensures var k := if |p.free| >= p.maxSize then 0
                     else if n <= p.maxSize - |p.free| then n else p.maxSize - |p.free|;
            r.free == p.free + Copies(element, k)
    ensures forall x :: x in r.free ==> x in p.free || x == element
    ensures Bounded(p) ==> Bounded(r)
    decreases n
  {
    if n == 0 then p else ReleaseTimes(Release(p, element).0, element, n - 1)
  }

  /** The `animationend` event of an element: every handler it carries
      runs, and each removes the element and releases it to the pool. */
  function PooledAnimationEnd(sc: Scene, element: nat): (r: Scene)
    ensures Listeners(sc, element) > 0 ==> forall x :: x in r.container <==> x in sc.container && x != element
    ensures r.listeners == sc.listeners && r.rotated == sc.rotated && r.next == sc.next
    ensures sc.global.None? ==> r.global == None
    ensures sc.global.Some? ==> r.global == Some(ReleaseTimes(sc.global.value, element, Listeners(sc, element)))
    ensures Listeners(sc, element) == 0 ==> r == sc
    ensures Distinct(sc.container) ==> Distinct(r.container)
    ensures Numbered(sc) ==> Numbered(r)
  {
    var n := Listeners(sc, element);
    if n == 0 then sc
    else
      var g := match sc.global
               case None => None
               case Some(p) => Some(ReleaseTimes(p, element, n));
      sc.(global := g, container := Detach(sc.container, element))
  }

  // ---------------------------------------------------------------------
  // Runs of page events

  /** What can happen to the pooled comments. */
  datatype SceneEvent =
    | InitPool(initialSize: int, maxSize: int)
    | Place(text: string, styles: seq<string>, speed: real, maxTop: int, minTop: int, special: Option<string>, d: Danmaku.Draws)
    | AnimationEnd(element: nat)
    | CleanupPool

  /** Every placement draws valid random numbers. */
  predicate ValidEvents(events: seq<SceneEvent>) {
    forall i :: 0 <= i < |events| ==> events[i].Place? ==> Danmaku.ValidDraws(events[i].d)
  }

  /** One event. */
  function SceneStep(sc: Scene, ev: SceneEvent): Scene
    requires ev.Place? ==> Danmaku.ValidDraws(ev.d)
  {
    match ev
    case InitPool(i, m) => SceneInit(sc, i, m)
    case Place(text, styles, speed, maxTop, minTop, special, d) =>
      CreatePooledDanmaku(sc, text, styles, speed, maxTop, minTop, special, d).scene
    case AnimationEnd(e) => PooledAnimationEnd(sc, e)
    case CleanupPool => SceneCleanup(sc)
  }

  /** A run of events, in order. */
  function RunScene(sc: Scene, events: seq<SceneEvent>): Scene
    requires ValidEvents(events)
    decreases |events|
  {
    if |events| == 0 then sc
    else
      assert events[0] == events[0];
      RunScene(SceneStep(sc, events[0]), events[1..])
  }

  /** Whatever the page does, an element is on screen at most once, and
      every element in play was made by the document. */
  lemma {:induction false} RunSceneDistinct(sc: Scene, events: seq<SceneEvent>)
    requires ValidEvents(events) && Numbered(sc) && Distinct(sc.container)
    ensures Numbered(RunScene(sc, events)) && Distinct(RunScene(sc, events).container)
    decreases |events|
  {
    if |events| > 0 {
      var next := SceneStep(sc, events[0]);
      assert ValidEvents(events[1..]) by {
        forall i | 0 <= i < |events[1..]| && events[1..][i].Place?
          ensures Danmaku.ValidDraws(events[1..][i].d)
        {
          assert events[1..][i] == events[i + 1];
        }
      }
      RunSceneDistinct(next, events[1..]);
    }
  }

  // ---------------------------------------------------------------------
  // Round trip and the reuse anomalies

  /** A pooled comment that ends its animation returns its element to
      the pool: placing a comment on a free element that carries no
      handler yet and ending it leaves the pool as it was. */
  lemma PooledRoundTrip(sc: Scene, text: string, styles: seq<string>, speed: real,
                        maxTop: int, minTop: int, special: Option<string>, d: Danmaku.Draws)
    requires Danmaku.ValidDraws(d) && sc.global.Some? && Numbered(sc)
    requires var p := sc.global.value; |p.free| > 0 && Bounded(p) && Listeners(sc, p.free[|p.free| - 1]) == 0
    ensures var placed := CreatePooledDanmaku(sc, text, styles, speed, maxTop, minTop, special, d);
            PooledAnimationEnd(placed.scene, placed.element).global == sc.global
  {
    var p := sc.global.value;
    assert p.(nextElement := sc.next) == p;
    var placed := CreatePooledDanmaku(sc, text, styles, speed, maxTop, minTop, special, d);
    AcquireReleaseRoundTrip(p);
    assert Listeners(placed.scene, placed.element) == 1;
    assert ReleaseTimes(Acquire(p).pool, placed.element, 1) == Release(Acquire(p).pool, placed.element).0;
  }

  /** A reused element keeps the handler of its first use, so its second
      animation end releases it twice: a pool of one element ends up
      offering that element twice. */
  lemma ReusedElementReleasedTwice(d: Danmaku.Draws)
    requires Danmaku.ValidDraws(d)
    ensures var s0 := SceneInit(EmptyScene, 1, 50);
            var a := CreatePooledDanmaku(s0, "a", ["s"], 8000.0, 75, 15, None, d);
            var s1 := PooledAnimationEnd(a.scene, a.element);
            var b := CreatePooledDanmaku(s1, "b", ["s"], 8000.0, 75, 15, None, d);
            var s2 := PooledAnimationEnd(b.scene, b.element);
            a.element == 0 && b.element == 0 && s2.global.value.free == [0, 0] && Listeners(s2, 0) == 2
  {
    var s0 := SceneInit(EmptyScene, 1, 50);
    assert s0.global.value.free == [0] && s0.next == 1;
    var a := CreatePooledDanmaku(s0, "a", ["s"], 8000.0, 75, 15, None, d);
    assert a.element == 0 && Listeners(a.scene, 0) == 1;
    var s1 := PooledAnimationEnd(a.scene, a.element);
    assert s1.global.value.free == [0];
    var b := CreatePooledDanmaku(s1, "b", ["s"], 8000.0, 75, 15, None, d);
    assert b.element == 0 && Listeners(b.scene, 0) == 2;
    var s2 := PooledAnimationEnd(b.scene, b.element);
    assert s2.global.value.free == [] + Copies(0, 2);
  }

  /** Both copies of a doubly freed element are handed out, yet the page
      shows it once: appending an element that is on screen moves it. */
  lemma DoublyFreedElementShownOnce(sc: Scene, d: Danmaku.Draws)
    requires Danmaku.ValidDraws(d)
    requires sc == Scene(Some(Pool([0, 0], 50, 1, 1)), [], map[0 := 2], {}, 1)
    ensures var a := CreatePooledDanmaku(sc, "a", ["s"], 8000.0, 75, 15, None, d);
            var b := CreatePooledDanmaku(a.scene, "b", ["s"], 8000.0, 75, 15, None, d);
            a.element == 0 && b.element == 0 && b.scene.container == [0] && Listeners(b.scene, 0) == 4
  {
    var a := CreatePooledDanmaku(sc, "a", ["s"], 8000.0, 75, 15, None, d);
    assert a.element == 0 && a.scene.container == [0];
    var b := CreatePooledDanmaku(a.scene, "b", ["s"], 8000.0, 75, 15, None, d);
    assert b.element == 0;
    assert Detach([0], 0) == [];
  }

  /** A pool made after a clean-up makes new elements: a comment from the
      old pool and one from the new pool are two elements with one handler
      each, and the old one's animation end leaves the new one on screen. */
  lemma CleanupKeepsElementsApart(d: Danmaku.Draws)
    requires Danmaku.ValidDraws(d)
    ensures var a := CreatePooledDanmaku(SceneInit(EmptyScene, 1, 50), "a", ["s"], 8000.0, 75, 15, None, d);
            var s1 := SceneInit(SceneCleanup(a.scene), 1, 50);
            var b := CreatePooledDanmaku(s1, "b", ["s"], 8000.0, 75, 15, None, d);
            && a.element == 0 && b.element == 1 && b.scene.container == [0, 1]
            && Listeners(b.scene, 0) == 1 && Listeners(b.scene, 1) == 1
            && PooledAnimationEnd(b.scene, 0).container == [1]
  {
    var a := CreatePooledDanmaku(SceneInit(EmptyScene, 1, 50), "a", ["s"], 8000.0, 75, 15, None, d);
    FirstPlacement(d);
    var s1 := SceneInit(SceneCleanup(a.scene), 1, 50);
    PoolAfterCleanup(a.scene);
    SecondPlacement(s1, d);
    var b := CreatePooledDanmaku(s1, "b", ["s"], 8000.0, 75, 15, None, d);
    OldCommentEnds(b.scene);
  }

  /** The first comment of a page with a one-element pool. */
  lemma FirstPlacement(d: Danmaku.Draws)
    requires Danmaku.ValidDraws(d)
    ensures var a := CreatePooledDanmaku(SceneInit(EmptyScene, 1, 50), "a", ["s"], 8000.0, 75, 15, None, d);
            && a.element == 0 && a.scene.global == Some(Pool([], 50, 1, 1)) && a.scene.container == [0]
            && a.scene.listeners == map[0 := 1] && a.scene.next == 1
  {
    var s0 := SceneInit(EmptyScene, 1, 50);
    assert s0.global.value.free == Fresh(0, 1) == [0];
    assert s0.global == Some(Pool([0], 50, 1, 1)) && s0.next == 1;
  }

  /** Clean-up and a new one-element pool after the first comment. */
  lemma PoolAfterCleanup(sc: Scene)
    requires sc.global == Some(Pool([], 50, 1, 1)) && sc.container == [0] && sc.listeners == map[0 := 1] && sc.next == 1
    ensures var s1 := SceneInit(SceneCleanup(sc), 1, 50);
            && s1.global == Some(Pool([1], 50, 1, 2)) && s1.container == [0]
            && s1.listeners == map[0 := 1] && s1.next == 2
  {
    var c := SceneCleanup(sc);
    assert c.container == [0] && c.global == None;
    assert Fresh(1, 1) == [1];
  }

  /** The comment from the new pool. */
  lemma SecondPlacement(sc: Scene, d: Danmaku.Draws)
    requires Danmaku.ValidDraws(d)
    requires sc.global == Some(Pool([1], 50, 1, 2)) && sc.container == [0] && sc.listeners == map[0 := 1] && sc.next == 2
    ensures var b := CreatePooledDanmaku(sc, "b", ["s"], 8000.0, 75, 15, None, d);
            b.element == 1 && b.scene.container == [0, 1] && b.scene.listeners == map[0 := 1, 1 := 1]
  {
    var b := CreatePooledDanmaku(sc, "b", ["s"], 8000.0, 75, 15, None, d);
    assert b.element == 1;
    assert b.scene.container == [0] + [1];
  }

  /** The old comment's animation end. */
  lemma OldCommentEnds(sc: Scene)
    requires sc.container == [0, 1] && sc.listeners == map[0 := 1, 1 := 1]
    ensures PooledAnimationEnd(sc, 0).container == [1]
  {
    assert Listeners(sc, 0) == 1;
    assert Detach([0, 1], 0) == [1] by {
      assert [0, 1][1..] == [1];
      assert 0 !in [1];
    }
  }

  /** A tilt outlives the reset: an element tilted on its first use runs
      the tilted animation on its next use even when that use draws no
      tilt. */
  lemma TiltOutlivesReset(d1: Danmaku.Draws, d2: Danmaku.Draws)
    requires Danmaku.ValidDraws(d1) && Danmaku.ValidDraws(d2) && d1.rotate > 0.7 && d2.rotate <= 0.7
    ensures var a := CreatePooledDanmaku(SceneInit(EmptyScene, 1, 50), "a", ["s"], 8000.0, 75, 15, None, d1);
            var b := CreatePooledDanmaku(PooledAnimationEnd(a.scene, a.element), "b", ["s"], 8000.0, 75, 15, None, d2);
            b.element == a.element && b.look.rotation == None && b.rotatedAnimation
  {
    var s0 := SceneInit(EmptyScene, 1, 50);
    assert s0.global.value.free == [0] && s0.next == 1;
    var a := CreatePooledDanmaku(s0, "a", ["s"], 8000.0, 75, 15, None, d1);
    assert a.element == 0 && 0 in a.scene.rotated;
    var s1 := PooledAnimationEnd(a.scene, a.element);
    assert s1.global.value.free == [0];
  }
}

=== FILE: helpers.dfy ===
/**
  The general-purpose helpers of `src/utils/helpers.js`: random choices
  with the random source passed in, and `throttle` / `debounce` as state
  machines driven by explicit "call" and "timer fires" events.

  A draw of `Math.random()` is a `real` in [0, 1); the caller supplies it.
 */
module Helpers {
  import opened Js

  /** A value `Math.random()` can return. */
  predicate IsDraw(r: real) {
    0.0 <= r < 1.0
  }

  /** `Math.floor(r * n)` for a draw `r`. */
  function ScaledFloor(r: real, n: int): int {
    (r * (n as real)).Floor
  }

  /** Scaling a draw by a positive count lands in [0, n). */
  lemma ScaledFloorRange(r: real, n: int)
    requires IsDraw(r) && n > 0
    ensures 0 <= ScaledFloor(r, n) < n
  {
    var m := n as real;
    var x := r * m;
    assert 0.0 <= x;
    assert x == m - (1.0 - r) * m;
    assert (1.0 - r) * m > 0.0;
  }

  /** `randomInt(min, max)` (helpers.js:98-100): `Math.floor(r * (max - min + 1)) + min`. */
  function RandomInt(r: real, min: int, max: int): (k: int)
    requires IsDraw(r)
    ensures min <= max ==> min <= k <= max
    ensures min == max ==> k == min
  {
    if min <= max then ScaledFloorRange(r, max - min + 1); ScaledFloor(r, max - min + 1) + min
    else ScaledFloor(r, max - min + 1) + min
  }

  /** Every integer of [min, max] is the result of some draw, so the range
      is covered exactly, not merely bounded. */
  lemma RandomIntCovers(min: int, max: int, k: int)
    requires min <= k <= max
    ensures var r := ((k - min) as real) / ((max - min + 1) as real);
            IsDraw(r) && RandomInt(r, min, max) == k
  {
    var n := max - min + 1;
    var r := ((k - min) as real) / (n as real);
    assert r * (n as real) == (k - min) as real;
    assert (r * (n as real)).Floor == k - min;
  }

  /** The index `randomItem` reads: `Math.floor(r * array.length)`. */
  function RandomIndex(r: real, len: nat): (i: int)
    requires IsDraw(r)
    ensures len > 0 ==> 0 <= i < len
    ensures len == 0 ==> i == 0
  {
    if len > 0 then ScaledFloorRange(r, len); ScaledFloor(r, len) else ScaledFloor(r, len)
  }

  /** `randomItem(array)` (helpers.js:86-88); reading past the end of an
      empty array gives `undefined`. */
  function RandomItem<T>(r: real, xs: seq<T>): (o: Option<T>)
    requires IsDraw(r)
    ensures |xs| == 0 <==> o == None
    ensures o.Some? ==> o.value in xs
    ensures |xs| == 1 ==> o == Some(xs[0])
  {
    var i := RandomIndex(r, |xs|);
    if 0 <= i < |xs| then Some(xs[i]) else None
  }

  /** Every element of a non-empty array is the result of some draw: the
      draw i / length picks index i. */
  lemma RandomItemCovers<T>(xs: seq<T>, i: nat)
    requires i < |xs|
    ensures var r := (i as real) / (|xs| as real);
            IsDraw(r) && RandomItem(r, xs) == Some(xs[i])
  {
    var n := |xs| as real;
    var r := (i as real) / n;
    assert r * n == i as real;
    assert ScaledFloor(r, |xs|) == i;
    assert RandomIndex(r, |xs|) == i;
  }

  // ---------------------------------------------------------------------
  // throttle (helpers.js:16-26)

  /** What can happen to a throttled function: it is called, or the
      timer scheduled by the last accepted call fires. */
  datatype ThrottleEvent<A> = Call(args: A) | ThrottleTimerFires

  /** One event. `inThrottle` is the closure's flag; the second component
      is the argument list the wrapped function ran with, if it ran. */
  function ThrottleStep<A>(inThrottle: bool, e: ThrottleEvent<A>): (r: (bool, Option<A>))
    ensures e.Call? && !inThrottle ==> r == (true, Some(e.args))
    ensures e.Call? && inThrottle ==> r == (true, None)
    ensures e.ThrottleTimerFires? ==> r == (false, None)
  {
    match e
    case Call(a) => if !inThrottle then (true, Some(a)) else (true, None)
    case ThrottleTimerFires => (false, None)
  }

  /** The result of a run of events: the final flag and the argument lists
      of the calls that reached the wrapped function, in order. */
  datatype ThrottleRun<A> = ThrottleRun(inThrottle: bool, ran: seq<A>)

  function RunThrottle<A>(inThrottle: bool, events: seq<ThrottleEvent<A>>): ThrottleRun<A>
    decreases |events|
  {
    if |events| == 0 then ThrottleRun(inThrottle, [])
    else
      var (t, out) := ThrottleStep(inThrottle, events[0]);
      var rest := RunThrottle(t, events[1..]);
      ThrottleRun(rest.inThrottle, (if out.Some? then [out.value] else []) + rest.ran)
  }

  /** Number of timer firings in a run. */
  function Fires<A>(events: seq<ThrottleEvent<A>>): nat {
    if |events| == 0 then 0
    else (if events[0].ThrottleTimerFires? then 1 else 0) + Fires(events[1..])
  }

  /** All events are calls. */
  predicate OnlyCalls<A>(events: seq<ThrottleEvent<A>>) {
    forall i :: 0 <= i < |events| ==> events[i].Call?
  }

  /** A burst of calls with no timer firing in between runs the wrapped
      function once, immediately, with the first call's arguments; every
      other call is dropped (helpers.test.js:10-22). */
  lemma {:induction false} ThrottleBurst<A>(events: seq<ThrottleEvent<A>>)
    requires |events| > 0 && OnlyCalls(events)
    ensures RunThrottle(false, events) == ThrottleRun(true, [events[0].args])
  {
    ThrottleDropsWhileThrottled(events[1..]);
  }

  /** While the flag is set and no timer fires, every call is dropped. */
  lemma {:induction false} ThrottleDropsWhileThrottled<A>(events: seq<ThrottleEvent<A>>)
    requires OnlyCalls(events)
    ensures RunThrottle(true, events) == ThrottleRun(true, [])
    decreases |events|
  {
    if |events| > 0 {
      assert OnlyCalls(events[1..]) by {
        forall i | 0 <= i < |events[1..]| ensures events[1..][i].Call? {
          assert events[1..][i] == events[i + 1];
        }
      }
      ThrottleDropsWhileThrottled(events[1..]);
    }
  }

  /** Once the timer has fired, the next call runs again
      (helpers.test.js:24-36). */
  lemma ThrottleReopens<A>(inThrottle: bool, a: A, b: A)
    ensures RunThrottle(inThrottle, [Call(a), ThrottleTimerFires, Call(b)]).ran
         == (if inThrottle then [] else [a]) + [b]
  {
    var e: seq<ThrottleEvent<A>> := [Call(a), ThrottleTimerFires, Call(b)];
    assert e[1..] == [ThrottleTimerFires, Call(b)];
    assert e[1..][1..] == [Call(b)];
    assert e[1..][1..][1..] == [];
    assert RunThrottle(false, e[1..][1..]) == ThrottleRun(true, [b]);
    assert RunThrottle(true, e[1..]) == ThrottleRun(true, [b]);
  }

  /** Rate bound: between two executions the timer must have fired, so a
      run executes at most one more time than the timer fires. */
  lemma {:induction false} ThrottleRateBound<A>(inThrottle: bool, events: seq<ThrottleEvent<A>>)
    ensures |RunThrottle(inThrottle, events).ran| <= Fires(events) + (if inThrottle then 0 else 1)
    decreases |events|
  {
    if |events| > 0 {
      var (t, out) := ThrottleStep(inThrottle, events[0]);
      ThrottleRateBound(t, events[1..]);
    }
  }

  // ---------------------------------------------------------------------
  // debounce (helpers.js:38-48)

  /** What can happen to a debounced function: it is called, or the
      pending timer's delay elapses. */
  datatype DebounceEvent<A> = Invoke(args: A) | DebounceTimerFires

  /** One event. `pending` holds the arguments of the scheduled `later`,
      if a timer is pending; the second component is what ran. */
  function DebounceStep<A>(pending: Option<A>, e: DebounceEvent<A>): (r: (Option<A>, Option<A>))
    ensures e.Invoke? ==> r == (Some(e.args), None)
    ensures e.DebounceTimerFires? ==> r == (None, pending)
  {
    match e
    case Invoke(a) => (Some(a), None)
    case DebounceTimerFires => (None, pending)
  }

  datatype DebounceRun<A> = DebounceRun(pending: Option<A>, ran: seq<A>)

  function RunDebounce<A>(pending: Option<A>, events: seq<DebounceEvent<A>>): DebounceRun<A>
    decreases |events|
  {
    if |events| == 0 then DebounceRun(pending, [])
    else
      var (p, out) := DebounceStep(pending, events[0]);
      var rest := RunDebounce(p, events[1..]);
      DebounceRun(rest.pending, (if out.Some? then [out.value] else []) + rest.ran)
  }

  /** The calls of a burst, as events. */
  function Invokes<A>(args: seq<A>): (events: seq<DebounceEvent<A>>)
    ensures |events| == |args|
    ensures forall i :: 0 <= i < |args| ==> events[i] == Invoke(args[i])
  {
    if |args| == 0 then [] else [Invoke(args[0])] + Invokes(args[1..])
  }

  /** A burst of calls runs nothing yet and leaves exactly one timer
      pending, carrying the last call's arguments. */
  lemma {:induction false} DebounceBurstPending<A>(pending: Option<A>, args: seq<A>)
    requires |args| > 0
    ensures RunDebounce(pending, Invokes(args)) == DebounceRun(Some(args[|args| - 1]), [])
    decreases |args|
  {
    var e := Invokes(args);
    assert e[1..] == Invokes(args[1..]);
    if |args| > 1 {
      DebounceBurstPending(Some(args[0]), args[1..]);
    }
  }

  /** A burst followed by the timer runs the function exactly once, with
      the last call's arguments (helpers.test.js:40-56). */
  lemma DebounceBurstThenFire<A>(args: seq<A>)
    requires |args| > 0
    ensures RunDebounce(None, Invokes(args) + [DebounceTimerFires]).ran == [args[|args| - 1]]
  {
    DebounceBurstPending(None, args);
    RunDebounceAppend(None, Invokes(args), [DebounceTimerFires]);
  }

  /** Running two event sequences back to back. */
  lemma {:induction false} RunDebounceAppend<A>(pending: Option<A>, xs: seq<DebounceEvent<A>>, ys: seq<DebounceEvent<A>>)
    ensures var first := RunDebounce(pending, xs);
            var second := RunDebounce(first.pending, ys);
            RunDebounce(pending, xs + ys) == DebounceRun(second.pending, first.ran + second.ran)
    decreases |xs|
  {
    if |xs| > 0 {
      assert (xs + ys)[0] == xs[0];
      assert (xs + ys)[1..] == xs[1..] + ys;
      var (p, out) := DebounceStep(pending, xs[0]);
      RunDebounceAppend(p, xs[1..], ys);
    } else {
      assert xs + ys == ys;
    }
  }
}

=== FILE: js.dfy ===
/**
  The few pieces of JavaScript built-in behaviour the application leans on:
  an absent value (`null` / `undefined`) and `String.prototype.trim`.
 */
module Js {

  /** A value that may be absent, the model of `null` / `undefined`. */
  datatype Option<T> = None | Some(value: T)

  /** A call that returned a value, or threw (a `TypeError` from using a
      value of the wrong shape, or the `throw` of a missing element). */
  datatype Outcome<T> = Returned(value: T) | Threw

  /** The code points `String.prototype.trim` strips: WhiteSpace and
      LineTerminator of ECMA-262 (sections 12.2 and 12.3), the Unicode
      space separators included. */
  predicate IsWhitespace(c: char) {
    var n := c as int;
    || n == 0x09 || n == 0x0A || n == 0x0B || n == 0x0C || n == 0x0D
    || n == 0x20 || n == 0xA0 || n == 0x1680
    || (0x2000 <= n <= 0x200A)
    || n == 0x2028 || n == 0x2029 || n == 0x202F || n == 0x205F
    || n == 0x3000 || n == 0xFEFF
  }

  /** Every character of `s` is whitespace (the empty string included). */
  predicate Blank(s: string) {
    BlankBetween(s, 0, |s|)
  }

  /** The characters of `s` at indices `lo` up to `hi` are whitespace. */
  predicate BlankBetween(s: string, lo: int, hi: int) {
    forall i :: lo <= i < hi && 0 <= i < |s| ==> IsWhitespace(s[i])
  }

  /** The index of the first non-whitespace character of `s` at or after
      `i`, or `|s|` when there is none. */
  function SkipBlankForward(s: string, i: nat): (j: nat)
    requires i <= |s|
    ensures i <= j <= |s|
    ensures BlankBetween(s, i, j)
    ensures j < |s| ==> !IsWhitespace(s[j])
    decreases |s| - i
  {
    if i < |s| && IsWhitespace(s[i]) then SkipBlankForward(s, i + 1) else i
  }

  /** The end of the text in `s[lo..hi]` once trailing whitespace is
      dropped: the largest `k` with only whitespace in `s[k..hi]`. */
  function SkipBlankBackward(s: string, lo: nat, hi: nat): (k: nat)
    requires lo <= hi <= |s|
    ensures lo <= k <= hi
    ensures BlankBetween(s, k, hi)
    ensures k > lo ==> !IsWhitespace(s[k - 1])
  {
    if lo < hi && IsWhitespace(s[hi - 1]) then SkipBlankBackward(s, lo, hi - 1) else hi
  }

  /** `r` sits in `s` at offset `lo` with only whitespace around it. */
  predicate TrimmedAt(s: string, r: string, lo: int) {
    && 0 <= lo <= |s| - |r|
    && r == s[lo..lo + |r|]
    && BlankBetween(s, 0, lo)
    && BlankBetween(s, lo + |r|, |s|)
  }

  /** `String.prototype.trim`: the text between the leading and the
      trailing whitespace. */
  function Trim(s: string): (r: string)
    ensures |r| <= |s|
    ensures r == [] <==> Blank(s)
    ensures r != [] ==> !IsWhitespace(r[0]) && !IsWhitespace(r[|r| - 1])
    ensures exists lo :: TrimmedAt(s, r, lo)
  {
    var lo := SkipBlankForward(s, 0);
    var hi := SkipBlankBackward(s, lo, |s|);
    var r := s[lo..hi];
    assert TrimmedAt(s, r, lo);
    assert r != [] ==> r[0] == s[lo] && r[|r| - 1] == s[hi - 1];
    r
  }

  /** Trimming is idempotent. */
  lemma TrimIdempotent(s: string)
    ensures Trim(Trim(s)) == Trim(s)
  {
    var r := Trim(s);
    if r != [] {
      assert SkipBlankForward(r, 0) == 0;
      assert SkipBlankBackward(r, 0, |r|) == |r|;
      assert r[0..|r|] == r;
    }
  }
}

=== FILE: legacy.dfy ===
/**
  The countdown of the legacy single-file page, `script.js`.

  It shares the decomposition, the one-day check and the render gate with
  `src/core/countdown.js` (so those stages come from `Countdown`), but
  differs in three ways:
  - the final minute is left only on a true-to-false change;
  - the whole tick runs inside `try`/`catch`, so a failure ends the tick
    without stopping the interval;
  - the target date is a mutable global that `simulateCountdown` moves.
  `window.lastSeconds` starts at -1 (script.js:605), as `Countdown.Initial`
  has it.
 */
module Legacy {
  import opened Js
  import Countdown
  import Danmaku

  /** The page's globals: the countdown variables (`timer` is the live
      interval) and `CONFIG.springFestival` in milliseconds. */
  datatype State = State(clock: Countdown.State, target: int)

  /** What the page offers a tick: the countdown element, the subtitle
      element that showNewYearMessage rewrites, and the comment container
      that the final-minute comment is written to. */
  datatype Page = Page(hasDisplay: bool, hasSubtitle: bool, hasDanmakuContainer: bool)

  /** A tick's result; `caught` tells that an exception ended the tick and
      was caught by its `catch` (script.js:266-268). */
  datatype TickResult = TickResult(state: State, effects: seq<Countdown.Effect>, caught: bool)

  /** The final-minute check of script.js:200-209: enter on a
      false-to-true change, leave on a true-to-false change, nothing
      otherwise. */
  function EdgeFinalMinuteStage(s: Countdown.State, p: Countdown.Parts): (r: Countdown.Step)
    ensures var lastMinute := p.days == 0 && p.hours == 0 && p.minutes == 0 && p.seconds <= 59;
            && r.state.isLastMinute == lastMinute
            && ((Countdown.EnterLastMinute in r.effects) <==> lastMinute && !s.isLastMinute)
            && ((Countdown.ExitLastMinute in r.effects) <==> !lastMinute && s.isLastMinute)
            && (s.isLastMinute == lastMinute ==> r == Countdown.Step(s, []))
            && r.state.oneMinuteEggTriggered == (s.oneMinuteEggTriggered || Countdown.EnterLastMinute in r.effects)
            && r.state.(isLastMinute := s.isLastMinute, oneMinuteEggTriggered := s.oneMinuteEggTriggered) == s
            && |r.effects| <= 1
  {
    var lastMinute := p.days == 0 && p.hours == 0 && p.minutes == 0 && p.seconds <= 59;
    if lastMinute && !s.isLastMinute then Countdown.TriggerLastMinute(s.(isLastMinute := true))
    else if !lastMinute && s.isLastMinute then Countdown.Step(s.(isLastMinute := false), [Countdown.ExitLastMinute])
    else Countdown.Step(s, [])
  }

  /** One tick of script.js:172-269 at time `now`. Entering the final
      minute writes a comment through a `createDanmaku` that has no guard
      for a missing container (script.js:326-330); the resulting exception
      skips the render of that tick. */
  function Tick(s: State, now: int, page: Page): (r: TickResult)
    ensures r.state.target == s.target
    // the terminal case: clear the interval, announce, skip everything else
    ensures s.target - now <= 0 ==>
              && r.state.clock.timer == None
              && Countdown.NewYear in r.effects
              && (Countdown.ShowArrived in r.effects <==> page.hasDisplay)
              && (forall e :: e in r.effects ==> e == Countdown.ShowArrived || e == Countdown.NewYear)
              && (r.caught <==> !page.hasSubtitle)
              && r.state.clock.(timer := s.clock.timer, shown := s.clock.shown) == s.clock
    // an exception never stops the interval
    ensures s.target - now > 0 ==> r.state.clock.timer == s.clock.timer && Countdown.NewYear !in r.effects
    // the one-day egg
    ensures (Countdown.OneDayEgg in r.effects) <==>
              Countdown.DayMs <= s.target - now < Countdown.DayMs + Countdown.HourMs && !s.clock.oneDayEggTriggered
    ensures r.state.clock.oneDayEggTriggered == (s.clock.oneDayEggTriggered || Countdown.OneDayEgg in r.effects)
    // the final minute, edge-triggered both ways
    ensures s.target - now > 0 ==> (r.state.clock.isLastMinute <==> s.target - now < Countdown.MinuteMs)
    ensures (Countdown.EnterLastMinute in r.effects) <==>
              0 < s.target - now < Countdown.MinuteMs && !s.clock.isLastMinute
    ensures (Countdown.ExitLastMinute in r.effects) <==>
              s.target - now >= Countdown.MinuteMs && s.clock.isLastMinute
    // the failure on entering the final minute without a container
    ensures s.target - now > 0 ==>
              (r.caught <==> Countdown.EnterLastMinute in r.effects && !page.hasDanmakuContainer)
    ensures s.target - now > 0 && r.caught ==> r.state.clock.lastSeconds == s.clock.lastSeconds
    // the render gate
    ensures Countdown.Paints(r.effects) <==>
              s.target - now > 0 && !r.caught && s.clock.lastSeconds != Countdown.Decompose(s.target - now).seconds
  {
    var diff := s.target - now;
    if diff <= 0 then Arrive(s, page) else Run(s, diff, page)
  }

  /** The terminal branch of script.js:177-186: clear the interval, show
      the arrival, call showNewYearMessage, whose missing subtitle throws
      into the tick's `catch`. */
  function Arrive(s: State, page: Page): (r: TickResult)
    ensures r.state.target == s.target
    ensures r.state.clock.timer == None
    ensures Countdown.NewYear in r.effects
    ensures Countdown.ShowArrived in r.effects <==> page.hasDisplay
    ensures forall e :: e in r.effects ==> e == Countdown.ShowArrived || e == Countdown.NewYear
    ensures r.caught <==> !page.hasSubtitle
    ensures r.state.clock.(timer := s.clock.timer, shown := s.clock.shown) == s.clock
  {
    var shown := if page.hasDisplay then [] else s.clock.shown;
    var effects := (if page.hasDisplay then [Countdown.ShowArrived] else []) + [Countdown.NewYear];
    assert Countdown.NewYear == effects[|effects| - 1];
    TickResult(State(Countdown.Stop(s.clock).(shown := shown), s.target), effects, !page.hasSubtitle)
  }

  /** The two threshold checks of script.js:188-209: the one-day check,
      then the edge-triggered final-minute check. Neither paints. */
  function Checks(s: Countdown.State, diff: int): (r: Countdown.Step)
    requires diff > 0
    ensures r.state.timer == s.timer && r.state.shown == s.shown && r.state.lastSeconds == s.lastSeconds
    ensures forall e :: e in r.effects ==>
              e == Countdown.OneDayEgg || e == Countdown.EnterLastMinute || e == Countdown.ExitLastMinute
    ensures (Countdown.OneDayEgg in r.effects) <==>
              Countdown.DayMs <= diff < Countdown.DayMs + Countdown.HourMs && !s.oneDayEggTriggered
    ensures r.state.oneDayEggTriggered == (s.oneDayEggTriggered || Countdown.OneDayEgg in r.effects)
    ensures r.state.isLastMinute <==> diff < Countdown.MinuteMs
    ensures (Countdown.EnterLastMinute in r.effects) <==> diff < Countdown.MinuteMs && !s.isLastMinute
    ensures (Countdown.ExitLastMinute in r.effects) <==> diff >= Countdown.MinuteMs && s.isLastMinute
  {
    var p := Countdown.Decompose(diff);
    Countdown.OneDayWindow(diff);
    Countdown.LastMinuteWindow(diff);
    var a := Countdown.OneDayStage(s, p);
    var b := EdgeFinalMinuteStage(a.state, p);
    Countdown.Step(b.state, a.effects + b.effects)
  }

  /** A tick with `diff` milliseconds still to go: the checks, then either
      the exception of a final-minute comment without a container, which
      skips the render, or the render gate. */
  function Run(s: State, diff: int, page: Page): (r: TickResult)
    requires diff > 0
    ensures r.state.target == s.target
    ensures r.state.clock.timer == s.clock.timer
    ensures Countdown.NewYear !in r.effects && Countdown.ShowArrived !in r.effects
    ensures (Countdown.OneDayEgg in r.effects) <==>
              Countdown.DayMs <= diff < Countdown.DayMs + Countdown.HourMs && !s.clock.oneDayEggTriggered
    ensures r.state.clock.oneDayEggTriggered == (s.clock.oneDayEggTriggered || Countdown.OneDayEgg in r.effects)
    ensures r.state.clock.isLastMinute <==> diff < Countdown.MinuteMs
    ensures (Countdown.EnterLastMinute in r.effects) <==> diff < Countdown.MinuteMs && !s.clock.isLastMinute
    ensures (Countdown.ExitLastMinute in r.effects) <==> diff >= Countdown.MinuteMs && s.clock.isLastMinute
    ensures r.caught <==> Countdown.EnterLastMinute in r.effects && !page.hasDanmakuContainer
    ensures r.caught ==> r.state.clock.lastSeconds == s.clock.lastSeconds
    ensures Countdown.Paints(r.effects) <==> !r.caught && s.clock.lastSeconds != Countdown.Decompose(diff).seconds
  {
    var b := Checks(s.clock, diff);
    if Countdown.EnterLastMinute in b.effects && !page.hasDanmakuContainer then
      Countdown.PaintsAppend(b.effects, []);
      assert b.effects + [] == b.effects;
      TickResult(State(b.state, s.target), b.effects, true)
    else
      var c := Countdown.RenderStage(b.state, Countdown.Decompose(diff), page.hasDisplay, Countdown.AsWritten);
      Countdown.PaintsAppend(b.effects, c.effects);
      Countdown.AppendPaintsOnly(b.effects, c.effects);
      TickResult(State(c.state, s.target), b.effects + c.effects, false)
  }

  /** Ticks on the same side of the final-minute boundary neither enter
      nor leave it a second time. */
  lemma RepeatedTicksAreQuiet(s: State, now1: int, now2: int, page: Page)
    requires 0 < s.target - now2 && 0 < s.target - now1
    requires (s.target - now1 < Countdown.MinuteMs) == (s.target - now2 < Countdown.MinuteMs)
    ensures var second := Tick(Tick(s, now1, page).state, now2, page);
            Countdown.EnterLastMinute !in second.effects && Countdown.ExitLastMinute !in second.effects
  {
  }

  /** A tick that failed on entering the final minute leaves the flag set,
      so the next tick does not fail again and repaints if the seconds
      differ from the last painted ones. */
  lemma CaughtTickRecovers(s: State, now: int, page: Page)
    requires 0 < s.target - now < Countdown.MinuteMs && !s.clock.isLastMinute && !page.hasDanmakuContainer
    ensures var first := Tick(s, now, page);
            && first.caught && first.state.clock.timer == s.clock.timer
            && var second := Tick(first.state, now, page);
            && !second.caught
            && (Countdown.Paints(second.effects) <==> s.clock.lastSeconds != Countdown.Decompose(s.target - now).seconds)
  {
  }

  /** simulateCountdown(days, hours, minutes, seconds) at time `now`: the
      target moves to that distance from now; the one-day flag and the
      final-minute flag are cleared; the one-minute egg flag is kept. */
  function Simulate(s: State, now: int, days: int, hours: int, minutes: int, seconds: int): (r: State)
    ensures r.target - now == Countdown.PartsMs(Countdown.Parts(days, hours, minutes, seconds))
    ensures !r.clock.oneDayEggTriggered && !r.clock.isLastMinute
    ensures r.clock.(oneDayEggTriggered := s.clock.oneDayEggTriggered, isLastMinute := s.clock.isLastMinute) == s.clock
  {
    var target := now + days * 24 * 60 * 60 * 1000 + hours * 60 * 60 * 1000 + minutes * 60 * 1000 + seconds * 1000;
    State(s.clock.(oneDayEggTriggered := false, isLastMinute := false), target)
  }

  /** simulateCountdown(1, 0, 0, 0) re-arms the one-day egg: the next tick
      fires it, and the tick after that does not. */
  lemma SimulateOneDayFiresOnce(s: State, now: int, later: int, page: Page)
    requires now <= later
    ensures var t := Simulate(s, now, 1, 0, 0, 0);
            var first := Tick(t, now, page);
            && Countdown.OneDayEgg in first.effects
            && Countdown.OneDayEgg !in Tick(first.state, later, page).effects
  {
  }

  /** simulateCountdown(0, 0, 0, 59) re-arms the final minute: the next
      tick enters it, whatever the flag was before. */
  lemma SimulateLastMinuteEnters(s: State, now: int, page: Page)
    ensures Countdown.EnterLastMinute in Tick(Simulate(s, now, 0, 0, 0, 59), now, page).effects
  {
  }

  /** createDanmaku's eviction in script.js:326-336: reading `children` of
      a missing container throws; otherwise the module's capacity rule. */
  function CreateDanmaku<T>(container: Option<seq<T>>, max: int, item: T): (r: Outcome<seq<T>>)
    ensures r.Threw? <==> container.None?
    ensures r.Returned? ==> |r.value| > 0 && r.value[|r.value| - 1] == item
    ensures r.Returned? && |container.value| >= max && |container.value| > 0 ==>
              r.value[..|r.value| - 1] == container.value[1..]
    ensures r.Returned? && (|container.value| < max || |container.value| == 0) ==> r.value == container.value + [item]
    ensures r.Returned? && 1 <= max && |container.value| <= max ==> |r.value| <= max
  {
    match container
    case None => Threw
    case Some(children) => Returned(Danmaku.Admit(children, max, item))
  }

  /** With a container the two copies agree on what stays on screen:
      the legacy comments are the module's, whatever look they carry. */
  lemma CreateDanmakuAgrees(st: Danmaku.Stream, text: string, special: Option<string>, d: Danmaku.Draws, cfg: Danmaku.Config)
    requires Danmaku.ValidDraws(d)
    ensures var m := Danmaku.CreateDanmaku(st, true, text, special, d, cfg);
            CreateDanmaku(Some(st.children), cfg.maxOnScreen, m.children[|m.children| - 1]) == Returned(m.children)
  {
    var m := Danmaku.CreateDanmaku(st, true, text, special, d, cfg);
    var l := Danmaku.Admit(st.children, cfg.maxOnScreen, m.children[|m.children| - 1]);
    assert l == l[..|l| - 1] + [l[|l| - 1]];
    assert m.children == m.children[..|m.children| - 1] + [m.children[|m.children| - 1]];
  }
}

=== FILE: storage.dfy ===
/**
  The persistent stores of `src/utils/storage.js`.

  `localStorage` is a map from key to stored text. A stored text either
  parses (`Parsed`, holding the JSON value `JSON.parse` yields) or does not
  (`Corrupt`). Writing a value stores exactly that value: the round trip
  through `JSON.stringify` and `JSON.parse` is taken to be the identity on
  JSON values. A store that refuses writes (quota exceeded, storage
  disabled) has `writable == false`.
 */
module Storage {
  import opened Js

  /** A JSON value. */
  datatype Json =
    | JNull
    | JBool(b: bool)
    | JNum(n: real)
    | JStr(s: string)
    | JArr(items: seq<Json>)
    | JObj(fields: map<string, Json>)

  /** What a key holds: text that parses, or text that does not. */
  datatype Stored = Parsed(value: Json) | Corrupt

  datatype Store = Store(items: map<string, Stored>, writable: bool)

  /** The boolean a write returns, and the store afterwards. */
  datatype Write = Write(ok: bool, store: Store)

  /** JavaScript truthiness of a JSON value (`NaN` is not a JSON value). */
  predicate Truthy(v: Json) {
    match v
    case JNull => false
    case JBool(b) => b
    case JNum(n) => n != 0.0
    case JStr(s) => s != ""
    case _ => true
  }

  const SettingsKey: string := "spring_festival_settings"
  const HistoryKey: string := "spring_festival_danmaku_history"
  const UserDanmakuKey: string := "spring_festival_user_danmaku"

  // ---------------------------------------------------------------------
  // getStorage / setStorage / removeStorage / clearAllStorage (storage.js:37-97)

  /** getStorage: the stored value, or `default` when the key is absent or
      its text does not parse. */
  function GetStorage(store: Store, key: string, default: Json): (v: Json)
    ensures key !in store.items || store.items[key].Corrupt? ==> v == default
    ensures key in store.items && store.items[key].Parsed? ==> v == store.items[key].value
  {
    if key in store.items && store.items[key].Parsed? then store.items[key].value else default
  }

  /** setStorage: true and the value stored when the store accepts writes;
      false and nothing changed otherwise. No other key is touched. */
  function SetStorage(store: Store, key: string, v: Json): (w: Write)
    ensures w.ok == store.writable
    ensures w.store.writable == store.writable
    ensures w.ok ==> key in w.store.items && w.store.items[key] == Parsed(v)
    ensures !w.ok ==> w.store == store
    ensures w.store.items - {key} == store.items - {key}
  {
    if store.writable then Write(true, store.(items := store.items[key := Parsed(v)]))
    else Write(false, store)
  }

  /** removeStorage: always true; the key is gone and nothing else changes. */
  function RemoveStorage(store: Store, key: string): (w: Write)
    ensures w.ok && key !in w.store.items
    ensures w.store.items - {key} == store.items - {key}
    ensures w.store.writable == store.writable
  {
    Write(true, store.(items := store.items - {key}))
  }

  /** A written value reads back as written, whatever the default. */
  lemma SetThenGet(store: Store, key: string, v: Json, default: Json)
    requires store.writable
    ensures var w := SetStorage(store, key, v);
            w.ok && GetStorage(w.store, key, default) == v
  {
  }

  /** After removal a read yields the default. */
  lemma RemoveThenGet(store: Store, key: string, default: Json)
    ensures GetStorage(RemoveStorage(store, key).store, key, default) == default
  {
  }

  /** Two stores that agree outside `key` read alike at every other key. */
  lemma ReadsOutside(a: Store, b: Store, key: string, other: string, default: Json)
    requires a.items - {key} == b.items - {key} && other != key
    ensures GetStorage(a, other, default) == GetStorage(b, other, default)
  {
    assert other in a.items <==> other in a.items - {key};
    assert other in b.items <==> other in b.items - {key};
    if other in a.items {
      assert (a.items - {key})[other] == (b.items - {key})[other];
    }
  }

  /** A write to one key does not change what another key reads. */
  lemma SetKeepsOtherKeys(store: Store, key: string, other: string, v: Json, default: Json)
    requires other != key
    ensures GetStorage(SetStorage(store, key, v).store, other, default) == GetStorage(store, other, default)
  {
    ReadsOutside(SetStorage(store, key, v).store, store, key, other, default);
  }

  /** clearAllStorage: the application's three keys are gone; keys of
      other applications stay. */
  function ClearAllStorage(store: Store): (w: Write)
    ensures w.ok
    ensures SettingsKey !in w.store.items && HistoryKey !in w.store.items && UserDanmakuKey !in w.store.items
    ensures forall k :: k != SettingsKey && k != HistoryKey && k != UserDanmakuKey ==>
              (k in w.store.items <==> k in store.items) && (k in store.items ==> w.store.items[k] == store.items[k])
  {
    Write(true, store.(items := store.items - {SettingsKey, HistoryKey, UserDanmakuKey}))
  }

  // ---------------------------------------------------------------------
  // SettingsManager (storage.js:20-28, 102-142)

  /** DEFAULT_SETTINGS. */
  const DefaultSettings: map<string, Json> := map[
    "soundEnabled" := JBool(true),
    "soundVolume" := JNum(0.3),
    "danmakuSpeed" := JNum(15000.0),
    "danmakuInterval" := JNum(2000.0),
    "maxDanmakuOnScreen" := JNum(15.0),
    "mouseFollowEnabled" := JBool(false),
    "theme" := JStr("default")]

  /** The own properties object spread (`{...v}`) copies: an object's
      fields; nothing for `null`, booleans and numbers. Arrays and strings
      would contribute index keys, which this model leaves out. */
  function Spread(v: Json): map<string, Json> {
    if v.JObj? then v.fields else map[]
  }

  /** The settings object persisted under the settings key, as spread. */
  function Persisted(store: Store): map<string, Json> {
    Spread(GetStorage(store, SettingsKey, JObj(DefaultSettings)))
  }

  /** getSettings: every default key is present, and a persisted key
      overrides its default. */
  function GetSettings(store: Store): (m: map<string, Json>)
    ensures m.Keys == DefaultSettings.Keys + Persisted(store).Keys
    ensures forall k :: k in Persisted(store) ==> m[k] == Persisted(store)[k]
    ensures forall k :: k in DefaultSettings && k !in Persisted(store) ==> m[k] == DefaultSettings[k]
  {
    DefaultSettings + Persisted(store)
  }

  /** saveSettings: merge the given keys over the current settings and
      persist the result. */
  function SaveSettings(store: Store, settings: map<string, Json>): (w: Write)
    ensures w.ok == store.writable && w.store.writable == store.writable
    ensures w.ok ==> GetSettings(w.store) == GetSettings(store) + settings
    ensures !w.ok ==> w.store == store
  {
    var merged := GetSettings(store) + settings;
    var w := SetStorage(store, SettingsKey, JObj(merged));
    assert w.ok ==> Persisted(w.store) == merged;
    w
  }

  /** updateSetting: one key takes the new value, every other setting keeps
      its prior value. */
  function UpdateSetting(store: Store, key: string, value: Json): (w: Write)
    ensures w.ok == store.writable && w.store.writable == store.writable
    ensures w.ok ==> GetSettings(w.store) == GetSettings(store)[key := value]
    ensures !w.ok ==> w.store == store
  {
    var settings := GetSettings(store)[key := value];
    var w := SaveSettings(store, settings);
    assert GetSettings(store) + settings == settings;
    w
  }

  /** resetSettings: the settings read back as the defaults. */
  function ResetSettings(store: Store): (w: Write)
    ensures w.ok == store.writable && w.store.writable == store.writable
    ensures w.ok ==> GetSettings(w.store) == DefaultSettings
  {
    var w := SetStorage(store, SettingsKey, JObj(DefaultSettings));
    assert w.ok ==> Persisted(w.store) == DefaultSettings;
    w
  }

  /** A saved key reads back as saved, and an unrelated setting keeps the
      value it had (storage.test.js:67-81). */
  lemma SaveSettingsRoundTrip(store: Store, key: string, value: Json, other: string)
    requires store.writable && other != key && other in GetSettings(store)
    ensures var w := SaveSettings(store, map[key := value]);
            GetSettings(w.store)[key] == value && GetSettings(w.store)[other] == GetSettings(store)[other]
  {
  }

  // ---------------------------------------------------------------------
  // DanmakuHistoryManager: history (storage.js:147-192)

  const MaxHistory: nat := 100

  /** One history record `{text, type, timestamp}`. */
  function HistoryEntry(text: string, kind: string, timestamp: int): Json {
    JObj(map["text" := JStr(text), "type" := JStr(kind), "timestamp" := JNum(timestamp as real)])
  }

  /** getHistory. */
  function GetHistory(store: Store): Json {
    GetStorage(store, HistoryKey, JArr([]))
  }

  /** addHistory at time `now`. A stored history that is not an array has
      no `unshift`, and the call throws. */
  function AddHistory(store: Store, text: string, kind: string, now: int): (r: Outcome<Write>)
    ensures r.Threw? <==> !GetHistory(store).JArr?
    ensures r.Returned? ==> r.value.ok == store.writable && (!r.value.ok ==> r.value.store == store)
    ensures r.Returned? ==> r.value.store.writable == store.writable
    ensures r.Returned? ==> r.value.store.items - {HistoryKey} == store.items - {HistoryKey}
    ensures r.Returned? && r.value.ok ==>
              var h := GetHistory(store).items;
              var h' := GetHistory(r.value.store);
              && h'.JArr?
              && |h'.items| == (if |h| + 1 > MaxHistory then |h| else |h| + 1)
              && h'.items[0] == HistoryEntry(text, kind, now)
              && h'.items[1..] == h[..|h'.items| - 1]
  {
    match GetHistory(store)
    case JArr(h) =>
      var grown := [HistoryEntry(text, kind, now)] + h;
      var bounded := if |grown| > MaxHistory then grown[..|grown| - 1] else grown;
      assert bounded[1..] == h[..|bounded| - 1];
      Returned(SetStorage(store, HistoryKey, JArr(bounded)))
    case _ => Threw
  }

  /** clearHistory. */
  function ClearHistory(store: Store): (w: Write)
    ensures w.ok == store.writable && w.store.writable == store.writable
    ensures w.ok ==> GetHistory(w.store) == JArr([])
    ensures !w.ok ==> w.store == store
    ensures w.store.items - {HistoryKey} == store.items - {HistoryKey}
  {
    SetStorage(store, HistoryKey, JArr([]))
  }

  /** One `addHistory(text, type)` call at a time. */
  datatype Addition = Addition(text: string, kind: string, now: int)

  /** A series of `addHistory` calls; a throwing call changes nothing. */
  function AddHistoryAll(store: Store, adds: seq<Addition>): Store
    decreases |adds|
  {
    if |adds| == 0 then store
    else
      var a := adds[0];
      var next := match AddHistory(store, a.text, a.kind, a.now)
                  case Returned(w) => w.store
                  case Threw => store;
      AddHistoryAll(next, adds[1..])
  }

  /** The records of a series of additions, newest first. */
  function NewestFirst(adds: seq<Addition>): (r: seq<Json>)
    ensures |r| == |adds|
    ensures forall i :: 0 <= i < |adds| ==>
              r[i] == HistoryEntry(adds[|adds| - 1 - i].text, adds[|adds| - 1 - i].kind, adds[|adds| - 1 - i].now)
  {
    if |adds| == 0 then []
    else NewestFirst(adds[1..]) + [HistoryEntry(adds[0].text, adds[0].kind, adds[0].now)]
  }

  function Min(a: int, b: int): int {
    if a <= b then a else b
  }

  /** Starting from a history of at most 100 records in a writable store,
      a series of additions leaves the newest records first, the older
      ones after them, cut to 100 in all. */
  lemma {:induction false} AddHistoryAllBounded(store: Store, h: seq<Json>, adds: seq<Addition>)
    requires store.writable && GetHistory(store) == JArr(h) && |h| <= MaxHistory
    ensures GetHistory(AddHistoryAll(store, adds))
            == JArr((NewestFirst(adds) + h)[..Min(MaxHistory, |adds| + |h|)])
    decreases |adds|
  {
    if |adds| == 0 {
      assert (NewestFirst(adds) + h)[..Min(MaxHistory, |adds| + |h|)] == h;
    } else {
      var a := adds[0];
      var e := HistoryEntry(a.text, a.kind, a.now);
      AddHistoryOnce(store, h, a);
      var next := AddHistory(store, a.text, a.kind, a.now).value.store;
      var h1 := ([e] + h)[..Min(MaxHistory, |h| + 1)];
      var rest := NewestFirst(adds[1..]);
      assert AddHistoryAll(store, adds) == AddHistoryAll(next, adds[1..]);
      AddHistoryAllBounded(next, h1, adds[1..]);
      assert |rest| == |adds[1..]|;
      ShiftCut(rest, e, h, NewestFirst(adds));
    }
  }

  /** Cutting after the front record and cutting once at the end agree:
      the sequence arithmetic behind one step of AddHistoryAllBounded. */
  lemma ShiftCut(rest: seq<Json>, e: Json, h: seq<Json>, all: seq<Json>)
    requires |h| <= MaxHistory && all == rest + [e]
    ensures var h1 := ([e] + h)[..Min(MaxHistory, |h| + 1)];
            (rest + h1)[..Min(MaxHistory, |rest| + |h1|)] == (all + h)[..Min(MaxHistory, |all| + |h|)]
  {
    var k := Min(MaxHistory, |h| + 1);
    var m := Min(MaxHistory, |rest| + 1 + |h|);
    assert Min(MaxHistory, |rest| + k) == m;
    PrefixThroughCut(rest, [e] + h, k, m);
    assert rest + ([e] + h) == all + h;
  }

  /** One addition to a writable store puts its record in front and cuts
      the history to 100. */
  lemma AddHistoryOnce(store: Store, h: seq<Json>, a: Addition)
    requires store.writable && GetHistory(store) == JArr(h) && |h| <= MaxHistory
    ensures var r := AddHistory(store, a.text, a.kind, a.now);
            && r.Returned? && r.value.store.writable
            && GetHistory(r.value.store) == JArr(([HistoryEntry(a.text, a.kind, a.now)] + h)[..Min(MaxHistory, |h| + 1)])
  {
    var r := AddHistory(store, a.text, a.kind, a.now);
    var h' := GetHistory(r.value.store).items;
    var e := HistoryEntry(a.text, a.kind, a.now);
    assert h' == [e] + h'[1..];
    assert ([e] + h)[..|h'|] == [e] + h[..|h'| - 1];
  }

  /** Cutting `ys` at `k` and then the whole at `m` is cutting once, when
      the first cut keeps everything the second one reaches. */
  lemma PrefixThroughCut(xs: seq<Json>, ys: seq<Json>, k: int, m: int)
    requires 0 <= k <= |ys| && 0 <= m <= |xs| + k
    ensures (xs + ys[..k])[..m] == (xs + ys)[..m]
  {
    forall i | 0 <= i < m ensures (xs + ys[..k])[i] == (xs + ys)[i] {
      if i >= |xs| {
        assert (xs + ys[..k])[i] == ys[..k][i - |xs|];
      }
    }
  }

  /** The bound the tests check: 110 additions to an empty history leave
      exactly 100 records, the newest first (storage.test.js:94-102). */
  lemma HistoryKeepsNewestHundred(store: Store, adds: seq<Addition>)
    requires store.writable && HistoryKey !in store.items && |adds| == MaxHistory + 10
    ensures var h := GetHistory(AddHistoryAll(store, adds));
            && h.JArr? && |h.items| == MaxHistory
            && forall i :: 0 <= i < MaxHistory ==>
                 h.items[i] == HistoryEntry(adds[|adds| - 1 - i].text, adds[|adds| - 1 - i].kind, adds[|adds| - 1 - i].now)
  {
    AddHistoryAllBounded(store, [], adds);
    assert NewestFirst(adds) + [] == NewestFirst(adds);
  }

  // ---------------------------------------------------------------------
  // DanmakuHistoryManager: user presets (storage.js:198-246)

  const MaxUserDanmaku: nat := 20

  /** getUserDanmaku. */
  function GetUserDanmaku(store: Store): Json {
    GetStorage(store, UserDanmakuKey, JArr([]))
  }

  /** No value occurs twice. */
  predicate NoDuplicates(xs: seq<Json>) {
    forall i, j :: 0 <= i < j < |xs| ==> xs[i] != xs[j]
  }

  /** `t` occurs in `s` as a contiguous piece (`String.prototype.includes`). */
  predicate Contains(s: string, t: string) {
    exists i :: 0 <= i <= |s| && t <= s[i..]
  }

  /** addUserDanmaku. A duplicate is refused with false. Otherwise the
      oldest preset is dropped when there are already 20, and the text goes
      first. A stored string still answers `includes` but has no `pop` or
      `unshift`; any other non-array has no `includes`: those throw. */
  function AddUserDanmaku(store: Store, text: string): (r: Outcome<Write>)
    ensures GetUserDanmaku(store).JArr? ==> r.Returned?
    ensures !GetUserDanmaku(store).JArr? && !GetUserDanmaku(store).JStr? ==> r.Threw?
    ensures r.Returned? && !r.value.ok ==> r.value.store == store
    ensures r.Returned? ==> r.value.store.items - {UserDanmakuKey} == store.items - {UserDanmakuKey}
    ensures r.Returned? ==> r.value.store.writable == store.writable
    ensures GetUserDanmaku(store).JArr? && JStr(text) in GetUserDanmaku(store).items ==> r == Returned(Write(false, store))
    ensures GetUserDanmaku(store).JArr? && JStr(text) !in GetUserDanmaku(store).items ==> r.value.ok == store.writable
    ensures GetUserDanmaku(store).JArr? && JStr(text) !in GetUserDanmaku(store).items && store.writable ==>
              var xs := GetUserDanmaku(store).items;
              var ys := GetUserDanmaku(r.value.store);
              && r.value.ok
              && ys.JArr? && 0 < |ys.items| <= |xs| + 1
              && |ys.items| == (if |xs| >= MaxUserDanmaku then |xs| else |xs| + 1)
              && ys.items[0] == JStr(text)
              && ys.items[1..] == xs[..|ys.items| - 1]
              && (|xs| < MaxUserDanmaku ==> |ys.items| == |xs| + 1)
              && (|xs| <= MaxUserDanmaku ==> |ys.items| <= MaxUserDanmaku)
              && (NoDuplicates(xs) ==> NoDuplicates(ys.items))
  {
    match GetUserDanmaku(store)
    case JArr(xs) =>
      if JStr(text) in xs then Returned(Write(false, store))
      else
        var kept := if |xs| >= MaxUserDanmaku then xs[..|xs| - 1] else xs;
        var ys := [JStr(text)] + kept;
        assert ys[1..] == kept;
        assert NoDuplicates(xs) ==> NoDuplicates(ys) by {
          if NoDuplicates(xs) {
            forall i, j | 0 <= i < j < |ys| ensures ys[i] != ys[j] {
              if i == 0 {
                assert ys[j] == kept[j - 1] == xs[j - 1];
              } else {
                assert ys[i] == xs[i - 1] && ys[j] == xs[j - 1];
              }
            }
          }
        }
        Returned(SetStorage(store, UserDanmakuKey, JArr(ys)))
    case JStr(s) =>
      if Contains(s, text) then Returned(Write(false, store)) else Threw
    case _ => Threw
  }

  /** `xs` without any occurrence of `x`, in the original order. */
  function Without(xs: seq<Json>, x: Json): (r: seq<Json>)
    ensures forall y :: y in r <==> y in xs && y != x
    ensures multiset(r) == multiset(xs)[x := 0]
    ensures |r| == |xs| <==> x !in xs
    ensures |r| <= |xs|
  {
    if |xs| == 0 then []
    else
      var rest := Without(xs[1..], x);
      assert xs == [xs[0]] + xs[1..];
      assert multiset(xs) == multiset([xs[0]]) + multiset(xs[1..]);
      if xs[0] == x then rest else [xs[0]] + rest
  }

  /** Filtering a concatenation filters each part in place, so the
      remaining values keep their order. */
  lemma {:induction false} WithoutAppend(a: seq<Json>, b: seq<Json>, x: Json)
    ensures Without(a + b, x) == Without(a, x) + Without(b, x)
    decreases |a|
  {
    if |a| == 0 {
      assert a + b == b;
    } else {
      assert (a + b)[1..] == a[1..] + b;
      WithoutAppend(a[1..], b, x);
    }
  }

  /** removeUserDanmaku. False when the text is not a preset; otherwise
      every occurrence goes. Only arrays have `filter`. */
  function RemoveUserDanmaku(store: Store, text: string): (r: Outcome<Write>)
    ensures r.Returned? <==> GetUserDanmaku(store).JArr?
    ensures r.Returned? && JStr(text) !in GetUserDanmaku(store).items ==> r.value == Write(false, store)
    ensures r.Returned? && !r.value.ok ==> r.value.store == store
    ensures r.Returned? ==> r.value.store.items - {UserDanmakuKey} == store.items - {UserDanmakuKey}
    ensures r.Returned? ==> r.value.store.writable == store.writable
    ensures r.Returned? && JStr(text) in GetUserDanmaku(store).items ==>
              && r.value.ok == store.writable
              && (r.value.ok ==>
                    var ys := GetUserDanmaku(r.value.store);
                    && ys.JArr? && ys.items == Without(GetUserDanmaku(store).items, JStr(text))
                    && (forall y :: y in ys.items <==> y in GetUserDanmaku(store).items && y != JStr(text))
                    && multiset(ys.items) == multiset(GetUserDanmaku(store).items)[JStr(text) := 0])
  {
    match GetUserDanmaku(store)
    case JArr(xs) =>
      var filtered := Without(xs, JStr(text));
      if |filtered| == |xs| then Returned(Write(false, store))
      else Returned(SetStorage(store, UserDanmakuKey, JArr(filtered)))
    case _ => Threw
  }

  /** clearUserDanmaku. */
  function ClearUserDanmaku(store: Store): (w: Write)
    ensures w.ok == store.writable && w.store.writable == store.writable
    ensures w.ok ==> GetUserDanmaku(w.store) == JArr([])
    ensures !w.ok ==> w.store == store
    ensures w.store.items - {UserDanmakuKey} == store.items - {UserDanmakuKey}
  {
    SetStorage(store, UserDanmakuKey, JArr([]))
  }

  /** Adding a preset that is already there, a second time, is refused
      (storage.test.js:104-116). */
  lemma AddUserDanmakuTwice(store: Store, text: string)
    requires store.writable && UserDanmakuKey !in store.items
    ensures var first := AddUserDanmaku(store, text);
            && first.Returned? && first.value.ok
            && AddUserDanmaku(first.value.store, text) == Returned(Write(false, first.value.store))
  {
    var first := AddUserDanmaku(store, text);
    assert GetUserDanmaku(first.value.store).items[0] == JStr(text);
  }
}

=== FILE: themes.dfy ===
/**
  The theme system of `src/utils/themes.js`: the five themes, the current
  theme persisted in the settings, switching by id, and the keyboard
  shortcuts. Applying a theme rewrites CSS variables; the model records
  which theme was applied and leaves the colours out.
 */
module Themes {
  import opened Js
  import Storage

  /** The keys of `THEMES`, in declaration order (what `Object.keys` gives). */
  const ThemeIds: seq<string> := ["default", "cyberpunk", "ancient", "sakura", "ocean"]

  /** The display names, in the same order. */
  const ThemeNames: seq<string> := ["默认粉蓝", "赛博朋克", "古风雅韵", "樱花纷飞", "深海幽蓝"]

  /** The part of a theme configuration the model keeps. */
  datatype Theme = Theme(id: string, name: string)

  /** A theme id is one of the five. */
  predicate IsTheme(id: string) {
    id in ThemeIds
  }

  /** The position of a theme id in `ThemeIds`. */
  function ThemeIndex(id: string): (k: nat)
    requires IsTheme(id)
    ensures k < |ThemeIds| && ThemeIds[k] == id
  {
    if id == ThemeIds[0] then 0
    else if id == ThemeIds[1] then 1
    else if id == ThemeIds[2] then 2
    else if id == ThemeIds[3] then 3
    else 4
  }

  /** The configuration of a theme id. */
  function ThemeOf(id: string): (t: Theme)
    requires IsTheme(id)
    ensures t.id == id && t.name == ThemeNames[ThemeIndex(id)]
  {
    Theme(id, ThemeNames[ThemeIndex(id)])
  }

  // ---------------------------------------------------------------------
  // Lookup in THEMES as written (themes.js:125, 182, 201)

  /** Property names every plain object inherits from `Object.prototype`;
      `THEMES[name]` is truthy for each of them. */
  const PrototypeNames: set<string> := {
    "constructor", "hasOwnProperty", "isPrototypeOf", "propertyIsEnumerable",
    "toLocaleString", "toString", "valueOf", "__defineGetter__",
    "__defineSetter__", "__lookupGetter__", "__lookupSetter__", "__proto__"}

  /** What `THEMES[id]` yields: an own theme configuration, an inherited
      member of `Object.prototype` (a function or the prototype itself,
      truthy but with no `colors`), or `undefined`. */
  datatype Entry = Own(theme: Theme) | Inherited(name: string) | Undefined

  /** `THEMES[id]`, including inherited properties. */
  function EntryAsWritten(id: string): (e: Entry)
    ensures e.Own? <==> IsTheme(id)
    ensures e.Own? ==> e.theme == ThemeOf(id)
    ensures e.Inherited? <==> id in PrototypeNames
  {
    if IsTheme(id) then Own(ThemeOf(id))
    else if id in PrototypeNames then Inherited(id)
    else Undefined
  }

  /** getThemeInfo as written: `THEMES[id] || null`. */
  function GetThemeInfoAsWritten(id: string): (e: Entry)
    ensures e.Undefined? <==> !IsTheme(id) && id !in PrototypeNames
    ensures e.Own? <==> IsTheme(id)
    ensures e.Own? ==> e.theme == ThemeOf(id)
  {
    EntryAsWritten(id)
  }

  /** getThemeInfo, looking at own theme ids only. */
  function GetThemeInfo(id: string): (t: Option<Theme>)
    ensures t.Some? <==> IsTheme(id)
    ensures t.Some? ==> t.value.id == id && t.value.name == ThemeNames[ThemeIndex(id)]
  {
    if IsTheme(id) then Some(ThemeOf(id)) else None
  }

  // ---------------------------------------------------------------------
  // getCurrentTheme / setTheme / init (themes.js:114-142, 180-185)

  /** getCurrentTheme: the persisted theme setting, or "default" when
      that is falsy. */
  function GetCurrentTheme(store: Storage.Store): (t: Storage.Json)
    ensures Storage.Truthy(t)
    ensures "theme" in Storage.GetSettings(store) && Storage.Truthy(Storage.GetSettings(store)["theme"]) ==>
              t == Storage.GetSettings(store)["theme"]
    ensures "theme" in Storage.GetSettings(store) && !Storage.Truthy(Storage.GetSettings(store)["theme"]) ==>
              t == Storage.JStr("default")
    ensures Storage.SettingsKey !in store.items ==> t == Storage.JStr("default")
  {
    assert "theme" in Storage.DefaultSettings;
    var v := Storage.GetSettings(store)["theme"];
    if Storage.Truthy(v) then v else Storage.JStr("default")
  }

  /** The result of a switch: setTheme's return value, the store after
      the settings write, and the theme whose styles were applied. */
  datatype Switch = Switch(ok: bool, store: Storage.Store, applied: Option<string>)

  /** The common tail of setTheme once the id is known to be a theme:
      apply it, persist it, and return true whatever the write returned. */
  function Install(store: Storage.Store, id: string): (s: Switch)
    requires IsTheme(id)
    ensures s.ok && s.applied == Some(id) && s.store.writable == store.writable
    ensures store.writable ==> GetCurrentTheme(s.store) == Storage.JStr(id)
    ensures !store.writable ==> s.store == store
  {
    var w := Storage.UpdateSetting(store, "theme", Storage.JStr(id));
    Switch(true, w.store, Some(id))
  }

  /** setTheme as written: an id that only `Object.prototype` provides
      passes the guard, and applying it reads `colors` of a value that has
      none, which throws. */
  function SetThemeAsWritten(store: Storage.Store, id: string): (r: Outcome<Switch>)
    ensures r.Threw? <==> id in PrototypeNames
    ensures r.Returned? ==> (r.value.ok <==> IsTheme(id))
    ensures r.Returned? && !r.value.ok ==> r.value == Switch(false, store, None)
  {
    match EntryAsWritten(id)
    case Undefined => Returned(Switch(false, store, None))
    case Inherited(_) => Threw
    case Own(_) => Returned(Install(store, id))
  }

  /** setTheme, with the guard on own theme ids: an unknown id is refused
      and changes nothing; a known one is applied and persisted, and reads
      back as the current theme. */
  function SetTheme(store: Storage.Store, id: string): (r: Switch)
    ensures r.ok <==> IsTheme(id)
    ensures r.store.writable == store.writable
    ensures !r.ok ==> r.store == store && r.applied == None
    ensures r.ok ==> r.applied == Some(id)
    ensures r.ok && store.writable ==> GetCurrentTheme(r.store) == Storage.JStr(id)
  {
    if IsTheme(id) then Install(store, id) else Switch(false, store, None)
  }

  /** Outside `Object.prototype`'s names the corrected setTheme does what
      the written one does. */
  lemma SetThemeAgrees(store: Storage.Store, id: string)
    requires id !in PrototypeNames
    ensures SetThemeAsWritten(store, id) == Returned(SetTheme(store, id))
  {
  }

  /** "constructor" passes the written guard and throws; getThemeInfo
      answers an inherited function instead of null. The corrected
      versions refuse it. */
  lemma PrototypeIdsPassTheGuard(store: Storage.Store)
    ensures SetThemeAsWritten(store, "constructor").Threw?
    ensures GetThemeInfoAsWritten("constructor") == Inherited("constructor")
    ensures SetTheme(store, "constructor") == Switch(false, store, None)
    ensures GetThemeInfo("constructor") == None
  {
    assert !IsTheme("constructor") by {
      assert "constructor" != ThemeIds[0] && "constructor" != ThemeIds[1] && "constructor" != ThemeIds[2];
      assert "constructor" != ThemeIds[3] && "constructor" != ThemeIds[4];
    }
  }

  /** init: apply the persisted theme when it names a theme; a setting
      that is not a theme id applies nothing. */
  function Init(store: Storage.Store): (applied: Option<string>)
    ensures applied.Some? <==> GetCurrentTheme(store).JStr? && IsTheme(GetCurrentTheme(store).s)
    ensures applied.Some? ==> GetCurrentTheme(store) == Storage.JStr(applied.value)
    ensures Storage.SettingsKey !in store.items ==> applied == Some("default")
  {
    var t := GetCurrentTheme(store);
    if t.JStr? && IsTheme(t.s) then Some(t.s) else None
  }

  /** init as written: the guard `THEMES[themeId]` also passes a persisted
      `Object.prototype` name, and applying that entry throws, as in
      `SetThemeAsWritten`. */
  function InitAsWritten(store: Storage.Store): (r: Outcome<Option<string>>)
    ensures r.Threw? <==> GetCurrentTheme(store).JStr? && GetCurrentTheme(store).s in PrototypeNames
    ensures r.Returned? && r.value.Some? ==> IsTheme(r.value.value) && GetCurrentTheme(store) == Storage.JStr(r.value.value)
  {
    var t := GetCurrentTheme(store);
    if !t.JStr? then Returned(None)
    else
      match EntryAsWritten(t.s)
      case Undefined => Returned(None)
      case Inherited(_) => Threw
      case Own(_) => Returned(Some(t.s))
  }

  /** Outside `Object.prototype`'s names the corrected init does what the
      written one does. */
  lemma InitAgrees(store: Storage.Store)
    requires !(GetCurrentTheme(store).JStr? && GetCurrentTheme(store).s in PrototypeNames)
    ensures InitAsWritten(store) == Returned(Init(store))
  {
  }

  /** Settings that persist "constructor" as the theme make the written
      init throw; the corrected one applies nothing. */
  lemma InitThrowsOnPrototypeName()
    ensures var store := Storage.Store(map[Storage.SettingsKey := Storage.Parsed(Storage.JObj(map["theme" := Storage.JStr("constructor")]))], true);
            InitAsWritten(store) == Threw && Init(store) == None
  {
    var store := Storage.Store(map[Storage.SettingsKey := Storage.Parsed(Storage.JObj(map["theme" := Storage.JStr("constructor")]))], true);
    assert Storage.GetSettings(store)["theme"] == Storage.JStr("constructor");
    assert !IsTheme("constructor") by {
      assert "constructor" != ThemeIds[0] && "constructor" != ThemeIds[1] && "constructor" != ThemeIds[2];
      assert "constructor" != ThemeIds[3] && "constructor" != ThemeIds[4];
    }
  }

  // ---------------------------------------------------------------------
  // Keyboard shortcuts (themes.js:208-232)

  /** The index Alt+T moves to: one past the current theme's index,
      wrapping; a current theme that is not a theme id counts as index -1,
      so the cycle restarts at the first theme. */
  function NextThemeIndex(current: Storage.Json): (k: nat)
    ensures k < |ThemeIds|
    ensures current.JStr? && IsTheme(current.s) ==> k == (ThemeIndex(current.s) + 1) % |ThemeIds|
    ensures !(current.JStr? && IsTheme(current.s)) ==> k == 0
  {
    var index := if current.JStr? && IsTheme(current.s) then ThemeIndex(current.s) else -1;
    (index + 1) % |ThemeIds|
  }

  /** A key press: `alt` tells whether Alt was held, `key` is the key's
      single-character name. Alt+1 … Alt+5 select the theme at that
      position; Alt+T (either case) moves to the next theme; any other
      press is not a shortcut (`None`). */
  function OnKeyDown(store: Storage.Store, alt: bool, key: char): (r: Option<Switch>)
    ensures r.Some? <==> alt && ('1' <= key <= '5' || key == 't' || key == 'T')
    ensures r.Some? && '1' <= key <= '5' ==>
              r.value == SetTheme(store, ThemeIds[key as int - '1' as int])
    ensures r.Some? && (key == 't' || key == 'T') ==>
              r.value == SetTheme(store, ThemeIds[NextThemeIndex(GetCurrentTheme(store))])
    ensures r.Some? ==> r.value.ok
  {
    if alt && '1' <= key <= '5' then
      Some(SetTheme(store, ThemeIds[key as int - '1' as int]))
    else if alt && (key == 't' || key == 'T') then
      Some(SetTheme(store, ThemeIds[NextThemeIndex(GetCurrentTheme(store))]))
    else None
  }

  /** One Alt+T press in a writable store moves the current theme one
      position on, from the last back to the first. */
  lemma AltTAdvances(store: Storage.Store, k: nat)
    requires store.writable && k < |ThemeIds| && GetCurrentTheme(store) == Storage.JStr(ThemeIds[k])
    ensures var r := OnKeyDown(store, true, 't');
            && r.Some? && r.value.store.writable
            && GetCurrentTheme(r.value.store) == Storage.JStr(ThemeIds[if k + 1 < |ThemeIds| then k + 1 else 0])
  {
    IndexOfThemeId(k);
    var next := NextThemeIndex(GetCurrentTheme(store));
    assert next == (if k + 1 < |ThemeIds| then k + 1 else 0);
    var r := SetTheme(store, ThemeIds[next]);
    assert OnKeyDown(store, true, 't') == Some(r);
  }

  /** Alt+T from a persisted value that is not a theme id starts the cycle
      at the first theme. */
  lemma AltTFromUnknown(store: Storage.Store)
    requires store.writable && !(GetCurrentTheme(store).JStr? && IsTheme(GetCurrentTheme(store).s))
    ensures var r := OnKeyDown(store, true, 'T');
            r.Some? && GetCurrentTheme(r.value.store) == Storage.JStr("default")
  {
  }

  /** The theme ids are distinct: each is found at its own position. */
  lemma IndexOfThemeId(k: nat)
    requires k < |ThemeIds|
    ensures IsTheme(ThemeIds[k]) && ThemeIndex(ThemeIds[k]) == k
  {
    if k == 0 {
    } else if k == 1 {
      assert ThemeIds[1] != ThemeIds[0];
    } else if k == 2 {
      assert ThemeIds[2] != ThemeIds[0] && ThemeIds[2] != ThemeIds[1];
    } else if k == 3 {
      assert ThemeIds[3] != ThemeIds[0] && ThemeIds[3] != ThemeIds[1] && ThemeIds[3] != ThemeIds[2];
    } else {
      assert ThemeIds[4] != ThemeIds[0] && ThemeIds[4] != ThemeIds[1] && ThemeIds[4] != ThemeIds[2];
      assert ThemeIds[4] != ThemeIds[3];
    }
  }

  /** Alt+1 … Alt+5 select every theme, in declaration order. */
  lemma AltDigitSelects(store: Storage.Store, k: nat)
    requires k < |ThemeIds| && store.writable
    ensures var r := OnKeyDown(store, true, ('1' as int + k) as char);
            r.Some? && r.value.applied == Some(ThemeIds[k]) && GetCurrentTheme(r.value.store) == Storage.JStr(ThemeIds[k])
  {
  }
}
